=== FILE: README.md ===
# thrust-three.js — a Dafny model of the game core

thrust-three.js is a browser clone of the arcade game *Thrust*. Its whole game
logic lives in `src/js/main.js`. The player flies a ship under gravity with a
limited fuel tank. Turrets shoot at the ship, and power plants can be shot
into meltdown. Doors open when they are shot. Fuel tanks refill the ship. The
player tows a fuel capsule out of the playfield to finish the level.

This project models that logic as pure functions over immutable data:

- one step function per entity (`Bullets`, `Turrets`, `PowerPlants`, `Doors`,
  `Capsules`, `Ships`, plus `Fuel` for the tank gauge);
- the level catalogue and its bounds-checked lookup (`Levels`);
- the world record, `resetScene` and `loadLevel` (`Worlds`);
- the rule body of `animate` split into its phases:
  - keyboard input with the fire latch and capsule pickup (`Controls`);
  - entity updates with the meltdown bonus (`Motion`);
  - the reverse bullet sweep (`Sweep`);
  - wall grazes and tank pickups (`Contact`);
  - the exit bonus and the level transition (`Frame`).

Collision is `checkCollision`: the squared distance between two centres is
below 1 (`Geometry.Collides`). The bullet colour is a boolean: `hostile`
stands for red, non-hostile for yellow. Lives and fuel are exact reals.
Lives change in steps of 0.5 and fuel in steps of 0.2 or 50, so the model
states the fuel gauge invariant exactly: fuel lies between 0 and 100 and is
a multiple of 0.2.

Trigonometry is a parameter. `Trig.heading(turn)` is the unit vector
`(cos, sin)` of the ship's facing, where `turn` is the mesh's `rotation.z`
plus π/2 (0 when the ship points right at the start). `Trig.aimAt(base,
target)` is the unit vector from a turret base to the ship, i.e. `atan2`
followed by `cos`/`sin`. `Math.random()` for a turret's initial fire
counter is `random(k)` for the k-th turret of a level, a value in [0, 1).

The bullet loop runs from the last bullet down to the first and splices
removed bullets out. It is modelled twice:

- `Sweep.Scan` is a recursive reference. It resolves `bs[1..]` first, then
  `bs[0]` in the world those bullets leave.
- `Sweep.SweepBullets` is the splice loop itself, proved equal to that
  reference.

When a bullet lands on several plants that are in meltdown after its hit
(whether the hit started the meltdown or it was already running), the game
deactivates every turret once per such plant. The model deactivates them
once; deactivation is idempotent, so the result is the same.

Game over stops input, the ship's flight and the turrets, but not the rest
of the frame. Melting plants keep counting down, and a finished meltdown
still scores 1000 and loads the next level with a full tank. Doors keep
closing, and bullets already in flight are still swept. A ship touching a
wall keeps losing lives and being knocked back. A towed capsule keeps
following the ship, tanks in reach are still picked up, and leaving the
playfield with the capsule still scores 500 and completes the level.

`loadLevel` with an index the catalogue does not have tears the scene down
and leaves the level number and the rest of the state as they were. The
model follows this code: no explicit "not found" result is returned. After
the last level is completed, the frame loop therefore continues in an empty
scene with fuel refilled.

## Model

| member | source | states |
|---|---|---|
| Geometry.DistSq | src/js/main.js:541-543 | the squared distance is never negative |
| Geometry.CollidesIffDistanceBelowOne | src/js/main.js:537-546 | two objects collide exactly when their Euclidean distance is below 1 |
| Geometry.CollidesSymmetric | src/js/main.js:537-546 | the collision test does not depend on argument order |
| Bullets.Update | src/js/main.js:124-129 | a bullet moves by its velocity, loses one frame of life, and is alive exactly when at least one frame is left |
| Bullets.Reflect | src/js/main.js:684-689 | a shield reflection reverses the velocity (old + new = 0), turns the shot yellow, and keeps position and lifespan |
| Bullets.AgeBurnsLife | src/js/main.js:124-129 | after n frames a bullet has lost n frames of life and moved n times its velocity |
| Bullets.FreshBulletLifetime | src/js/main.js:121-128 | a fresh bullet is still alive after its n-th update exactly when n < 60 |
| Turrets.Spawn | src/js/main.js:196-198 | a new turret is active, its gun points right, and its counter is the random phase times 120, in [0, 120) |
| Turrets.Update | src/js/main.js:201-228 | an inactive turret or game over changes nothing and fires nothing; otherwise the gun aims at the ship, the counter advances, and the turret fires exactly when it reaches 120, resetting to 0, with a red shot of speed 0.15 from 0.8 along the new aim |
| Turrets.Shoot | src/js/main.js:221-228 | a turret shot is red, has a full lifespan, starts 0.8 from the base along the gun and flies along it at 0.15 |
| Turrets.Deactivate | src/js/main.js:231-234 | deactivation clears `active` and keeps base, aim and counter |
| Turrets.CountsUpToPeriod | src/js/main.js:212-216 | a turret that has not fired gains one count per frame |
| Turrets.FiresWhenCounterReachesPeriod | src/js/main.js:212-216 | an active turret fires on the frame its counter reaches 120 |
| Turrets.FiresEveryPeriod | src/js/main.js:196-216 | from a reset counter, the next shot comes exactly 120 frames later |
| PowerPlants.Hit | src/js/main.js:249-273 | a hit costs one health point; it is critical exactly when health drops to 0 or below, which starts (or keeps) the meltdown; the invariant is kept |
| PowerPlants.Update | src/js/main.js:275-286 | a calm plant never completes; a melting plant counts down and completes exactly when its timer reaches 0 |
| PowerPlants.ThirdHitStartsMeltdown | src/js/main.js:244-255 | a fresh plant survives two hits and melts down on the third |
| PowerPlants.CountdownTimer | src/js/main.js:275-284 | n frames of meltdown take n off the timer |
| PowerPlants.MeltdownLastsSixHundredFrames | src/js/main.js:246-284 | a new meltdown completes on its 600th frame and not before |
| PowerPlants.CalmPlantNeverCompletes | src/js/main.js:275-286 | a plant that is not melting down never reports completion |
| Doors.Hit | src/js/main.js:312-315 | a hit opens the door for 300 frames |
| Doors.Update | src/js/main.js:317-323 | a closed door stays as it is; an open one counts down and closes when its timer reaches 0 |
| Doors.OpenCountdown | src/js/main.js:317-323 | n frames take n off an open door's timer while it stays open |
| Doors.ClosedDoorStays | src/js/main.js:317-323 | a closed door stays closed however long one waits |
| Doors.OpenForCloseTime | src/js/main.js:307-323 | a door that was just hit is still open after n frames exactly when n < 300 |
| Doors.WaitAdds | src/js/main.js:317-323 | waiting m frames and then n frames is waiting m + n frames |
| Capsules.Attach | src/js/main.js:170-172 | attaching sets the flag and keeps the position |
| Capsules.Follow | src/js/main.js:143-167 | a loose capsule stays put; a towed one closes 5 % of its gap to the ship each frame |
| Capsules.TrailDecaysGeometrically | src/js/main.js:153-166 | after n frames of towing the gap to a resting ship is 0.95ⁿ of what it was |
| Fuel.Burn | src/js/main.js:58-62 | thrust burns 0.2 only while fuel is above 0, and the gauge invariant is kept |
| Fuel.Refill | src/js/main.js:718 | a tank sets the fuel to min(fuel + 50, 100), never lowers a gauge at or below 100, and keeps the gauge invariant |
| Fuel.RefillsAddUp | src/js/main.js:716-723 | k ≥ 1 tanks add 50·k clamped once at 100 |
| Ships.Update | src/js/main.js:54-82 | game over freezes the ship; otherwise it moves by its new velocity, burns fuel only when thrusting with fuel, and keeps heading, thrust and shield |
| Ships.ThrustOnlyWithFuel | src/js/main.js:58-66 | with fuel above 0, thrust adds the heading times 0.01 (then friction) to the velocity and burns 0.2; with none it makes no difference |
| Ships.CoastingVelocity | src/js/main.js:68-74 | without thrust the new velocity is the old one plus gravity (vertical only), times 0.99 in both components, so the horizontal speed strictly shrinks unless it is 0 |
| Ships.GravityDirection | src/js/main.js:68-70 | from rest and without thrust, the ship gains vertical speed only, upward exactly on inverse-gravity levels |
| Ships.FuelAfterThrust | src/js/main.js:58-62 | n frames of thrust leave max(0, f − 0.2·n) fuel |
| Ships.Shoot | src/js/main.js:100-111 | no shot once the game is over; otherwise a yellow shot from the ship's centre along its heading at speed 0.3 |
| Levels.GetLevel | src/js/main.js:372-377 | a level is returned exactly when the index is in range, and then it is that catalogue entry |
| Levels.CatalogEndsAfterLevelOne | src/js/main.js:337-377 | the catalogue holds level 1 at index 0 and nothing at index 1 |
| Levels.Level1StartsClear | src/js/main.js:339-365 | level 1 places the ship clear of every wall and of the capsule |
| Worlds.ResetScene | src/js/main.js:507-528 | every entity list is emptied and the capsule dropped; state, ship and latch are kept |
| Worlds.LoadLevel | src/js/main.js:433-491 | an unknown level leaves only the emptied scene; a known one sets level and flags, puts the ship at rest at the start, and creates exactly one fresh entity per catalogue entry |
| Worlds.LoadLevelSound | src/js/main.js:433-528 | whatever the old scene was, the loaded level satisfies every world invariant once the capsule flag is cleared |
| Worlds.NewGameValid | src/js/main.js:12-23 | the game starts valid with 3 lives, 100 fuel and score 0 |
| Controls.FireLatch | src/js/main.js:591-603 | fire fires exactly when the key is down and was not down before; the latch records the key |
| Controls.HoldingFireShootsOnce | src/js/main.js:591-603 | holding fire for any number of frames shoots once, or never if the key was already held |
| Controls.ApplyInput | src/js/main.js:574-604 | once the game is over input changes nothing; input never touches the game state other than the capsule flag, nor walls, turrets, plants, tanks or doors |
| Controls.InputSteersShip | src/js/main.js:574-589 | A and S each turn the ship by 0.05 (together they cancel); thrust and shield follow their keys; the ship does not move |
| Controls.InputPicksUpCapsule | src/js/main.js:579-586 | shielding while touching the loose capsule attaches it and sets the flag; otherwise both are unchanged |
| Controls.InputFires | src/js/main.js:591-603 | the press of fire appends exactly one player shot along the new heading; the latch follows the key |
| Controls.ApplyInputSound | src/js/main.js:574-604 | input keeps every world invariant |
| Motion.Steps | src/js/main.js:614-615 | every turret is updated on its own, in order |
| Motion.Fired | src/js/main.js:616-619 | the shots collected never outnumber the steps, and each is the shot of one of them |
| Motion.FireTurrets | src/js/main.js:613-620 | every turret takes its own step, and the shots appended are exactly those steps' shots in turret order, each red with a full lifespan; nothing fires after game over |
| Motion.TickPlants | src/js/main.js:622-628 | every plant takes its own step |
| Motion.TickDoors | src/js/main.js:636-639 | every door takes its own step |
| Motion.AnyComplete | src/js/main.js:623-628 | the frame's meltdown flag is set exactly when some melting plant is on its last frame |
| Motion.UpdateEntities | src/js/main.js:606-639 | the level completes and 1000 points are added exactly when a meltdown runs out; only fuel, score and completion change in the state |
| Motion.MotionFrame | src/js/main.js:606-639 | the updates keep walls, tanks, latch, heading, thrust, shield, capsule presence and turret activity, and only append fresh red shots, at most one per turret |
| Motion.EntitiesTakeTheirStep | src/js/main.js:606-639 | the ship flies, the capsule follows the ship's new position, the turrets aim at it and their shots are appended, and every plant and door ticks |
| Motion.MotionAfterGameOver | src/js/main.js:606-620 | after game over the ship, turrets, bullets and fuel do not change |
| Motion.UpdateEntitiesSound | src/js/main.js:606-639 | the entity updates keep every world invariant |
| Sweep.KnockDoors | src/js/main.js:653-659 | exactly the closed doors the bullet lands on are hit |
| Sweep.StrikePlants | src/js/main.js:661-666 | exactly the plants the bullet lands on are hit |
| Sweep.DeactivateAll | src/js/main.js:667-670 | every turret is deactivated |
| Sweep.ResolveVerdict | src/js/main.js:643-697 | a bullet is removed exactly when its life ran out or it lands on a wall, a closed door, a plant or the unshielded ship; a red shot on the shield is reflected |
| Sweep.ResolveWorld | src/js/main.js:645-691 | a wound costs one life and ends the game at 0 or below; doors and plants are hit; a meltdown silences the turrets; nothing else changes |
| Sweep.Survivors | src/js/main.js:693-697 | there are never more survivors than bullets |
| Sweep.Scan | src/js/main.js:642-698 | one verdict per bullet; the number of turrets is kept |
| Sweep.SweepEffect | src/js/main.js:642-698 | the sweep keeps exactly the survivors, never adds lives, never clears game over and changes only doors, plants, turrets, lives and game over |
| Sweep.SweepKeepsTurretsInactive | src/js/main.js:667-670 | no bullet reactivates a turret |
| Sweep.VerdictInScanOrder | src/js/main.js:642-643 | bullet k is resolved in exactly the world the bullets after it leave behind |
| Sweep.KeptIndicesAscend | src/js/main.js:693-697 | the kept positions lie in the list and strictly increase |
| Sweep.KeptIndicesExact | src/js/main.js:693-697 | a position is kept exactly when its bullet is not removed |
| Sweep.SurvivorsAreOrderedFilter | src/js/main.js:693-697 | the survivors are the kept bullets in their original order |
| Sweep.ResolveSound | src/js/main.js:643-697 | resolving one bullet keeps every world invariant |
| Sweep.SweepSound | src/js/main.js:642-698 | the sweep keeps every invariant and no kept bullet has more than maxLife − 1 frames left |
| Sweep.SweepKeepsPlantsMelting | src/js/main.js:661-672 | no bullet ends a meltdown: a plant melting before the sweep still is after it |
| Sweep.SweepBullets | src/js/main.js:642-698 | the in-place splice loop computes exactly the reference sweep |
| Contact.Knockback | src/js/main.js:700-713 | each wall in contact costs half a life and multiplies the velocity by −0.5; the game ends when a graze leaves no lives |
| Contact.WallContact | src/js/main.js:700-713 | each wall in contact costs half a life and multiplies the velocity by −0.5; the game ends when a graze leaves no lives; nothing else changes |
| Contact.Remaining | src/js/main.js:716-722 | every tank left was there before and is not being picked up |
| Contact.Collect | src/js/main.js:716-723 | the reverse pickup loop leaves exactly the tanks not touched and refills once per touched tank |
| Contact.CollectTanks | src/js/main.js:715-723 | exactly the tanks out of reach remain and the fuel is refilled once per tank picked up; nothing else changes |
| Contact.PickupFuel | src/js/main.js:716-723 | k ≥ 1 pickups give min(fuel + 50·k, 100); none leaves the fuel alone |
| Contact.NothingLeftToPick | src/js/main.js:716-723 | after the pickups no tank at the ship remains to be picked |
| Contact.PickupIsIdempotent | src/js/main.js:719-721 | running the pickups again at the same spot changes nothing: no tank is collected twice |
| Contact.WallContactSound | src/js/main.js:700-713 | wall contact keeps every world invariant |
| Contact.CollectTanksSound | src/js/main.js:715-723 | pickups keep every world invariant, fuel on the gauge in particular |
| Contact.RefillKeepsGauge | src/js/main.js:718 | any number of refills keeps the fuel gauge invariant |
| Frame.AfterMotion | src/js/main.js:641-723 | the sweep and the contacts leave score, level, completion, capsule flag and position alone, never raise the lives, never clear game over, never add bullets and never reactivate a turret |
| Frame.StepScore | src/js/main.js:630-634 | a frame adds 1000 for a finished meltdown and 500 for towing the capsule out, and nothing else |
| Frame.StepLevel | src/js/main.js:725-739 | the level advances exactly when it is completed and a next level exists; completion refills the tank, clears the flags and the bullets |
| Frame.SimulateCompletes | src/js/main.js:623-634 | before the transition the level is complete exactly when a meltdown ran out or the ship left the field with the capsule |
| Frame.FinishLevelEffect | src/js/main.js:733-739 | the transition loads the next level, resets completion, capsule flag and fuel, and does nothing when no level was completed |
| Frame.FinishLevelKeeps | src/js/main.js:733-739 | the transition keeps lives, score, game over and the fire latch, and a loaded next level puts the ship at rest on its start |
| Frame.CheckExit | src/js/main.js:725-731 | leaving the playfield with the capsule completes the level and adds 500; nothing else in the world changes |
| Frame.LivesNeverRise | src/js/main.js:570-739 | no frame raises the lives: they fall only through wounds and grazes |
| Frame.GameOverIsSticky | src/js/main.js:681-682 | no frame clears game over |
| Frame.GameOverFreezesPlay | src/js/main.js:574-620 | after game over, input and the entity updates leave ship, turrets, bullets, fuel and latch unchanged, and the whole frame adds no bullet |
| Frame.TurretsStayInactive | src/js/main.js:667-670 | within a level no turret is reactivated |
| Frame.MeltdownIsPermanent | src/js/main.js:570-731 | a plant melting down before the frame still is after the updates, sweep and contacts |
| Frame.StepPreservesValid | src/js/main.js:570-739 | every frame keeps the world invariants: fuel on the gauge, lives used up mean game over, capsule flag matches the capsule, counters and timers in range, and a meltdown silences all turrets |
| Frame.SimulateSound | src/js/main.js:570-731 | the frame up to the transition keeps the invariants |
| Frame.MovedSound | src/js/main.js:574-639 | input and entity updates keep the invariants |
| Frame.SweepWorldSound | src/js/main.js:642-698 | the sweep of the world's own bullets keeps the invariants |
| Frame.CheckExitSound | src/js/main.js:725-731 | the exit check keeps the invariants |
| Frame.FinishLevelValid | src/js/main.js:733-739 | the level transition ends the frame in a valid state |

## Left out

- Rendering, meshes, colours of plants and guns, the tractor-beam mesh and the meltdown pulse (`Date.now`): they only affect the display.
- The DOM: `updateStats` and the game-over text. They only display state.
- `FuelCapsule.detach`: the game calls it only in `resetScene`, right before the capsule is discarded, so the model drops the capsule without it.
- The key handlers. A frame's keys are the `Keys` parameter.
- `Math.cos`, `Math.sin` and `Math.atan2`. They are the `Trig` parameter, so no property depends on their values.
- `Math.random`: it is the `random` parameter.
- `requestAnimationFrame` and `init`. `NewGame` stands for `init`, and `Step` for one call of `animate`.
- IEEE double rounding. Lives, fuel, velocities and positions are exact reals.
- Fuel.Burn: under doubles, subtracting 0.2 from 100 in 500 steps need not land exactly on 0. A tiny positive residue would allow one more burn below 0. The exact model cannot show this.
- Wall sizes: collision tests centres only, as in the source, so a wall's width and height play no part. They are kept as data.
- Wall visibility: `visible` mirrors `invisibleWalls` but is never read by the rules.
- The spacing between frames: a frame is one step with no timing.

=== FILE: bullet.dfy ===
/** Projectiles fired by the ship and by turrets. */
module Bullets {
  import opened Geometry

  /** Frames a freshly fired bullet exists. */
  const LIFESPAN: int := 60

  /** A projectile. `hostile` stands for the red colour that turret shots
      carry; player shots and shield-reflected shots are yellow. */
  datatype Bullet = Bullet(pos: Vec, vel: Vec, lifespan: int, hostile: bool)

  /** A newly created bullet, with its full lifespan. */
  function Fire(pos: Vec, vel: Vec, hostile: bool): Bullet
  {
    Bullet(pos, vel, LIFESPAN, hostile)
  }

  /** The bullet after one frame, and whether it is still alive. */
  datatype Tick = Tick(bullet: Bullet, alive: bool)

  /** One frame of flight: move by the velocity, burn one frame of life and
      report whether any life is left. */
  function Update(b: Bullet): (t: Tick)
    ensures t.bullet.lifespan == b.lifespan - 1
    ensures t.bullet.pos == Add(b.pos, b.vel)
    ensures t.bullet.vel == b.vel && t.bullet.hostile == b.hostile
    ensures t.alive <==> b.lifespan >= 2
  {
    var moved := b.(pos := Add(b.pos, b.vel), lifespan := b.lifespan - 1);
    Tick(moved, moved.lifespan > 0)
  }

  /** A shield bounce: the velocity reverses and the bullet turns yellow,
      so it no longer counts as a turret shot. */
  function Reflect(b: Bullet): (r: Bullet)
    ensures Add(r.vel, b.vel) == Origin
    ensures !r.hostile
    ensures r.pos == b.pos && r.lifespan == b.lifespan
  {
    b.(vel := Neg(b.vel), hostile := false)
  }

  /** The bullet after `n` frames of flight. */
  function Age(b: Bullet, n: nat): Bullet
    decreases n
  {
    if n == 0 then b else Update(Age(b, n - 1)).bullet
  }

  /** After `n` frames a bullet has lost exactly `n` frames of life and has
      travelled `n` times its velocity. */
  lemma {:induction false} AgeBurnsLife(b: Bullet, n: nat)
    ensures Age(b, n).lifespan == b.lifespan - n
    ensures Age(b, n).pos == Add(b.pos, Scale(b.vel, n as real))
    ensures Age(b, n).vel == b.vel
    decreases n
  {
    if n > 0 {
      AgeBurnsLife(b, n - 1);
      assert b.vel.x * (n - 1) as real + b.vel.x == b.vel.x * n as real;
      assert b.vel.y * (n - 1) as real + b.vel.y == b.vel.y * n as real;
    }
  }

  /** A fresh bullet reports itself alive on its first 59 updates and dead on
      the 60th. */
  lemma FreshBulletLifetime(b: Bullet, n: nat)
    requires b.lifespan == LIFESPAN && 1 <= n
    ensures Update(Age(b, n - 1)).alive <==> n < LIFESPAN
  {
    AgeBurnsLife(b, n - 1);
  }
}

=== FILE: capsule.dfy ===
/** The fuel capsule the ship must tow out of the playfield. */
module Capsules {
  import opened Geometry

  /** Fraction of the remaining offset the capsule closes each frame. */
  const FOLLOW_RATE: real := 0.05

  /** The tractor-beam visual is not modelled; only position and the
      attachment flag are. */
  datatype FuelCapsule = FuelCapsule(pos: Vec, attached: bool)

  function Spawn(pos: Vec): FuelCapsule
  {
    FuelCapsule(pos, false)
  }

  function Attach(c: FuelCapsule): (r: FuelCapsule)
    ensures r.attached && r.pos == c.pos
  {
    c.(attached := true)
  }

  /** One frame: an attached capsule moves 5% of the way to the ship, so the
      remaining offset shrinks to 95%; a free capsule stays put. */
  function Follow(c: FuelCapsule, ship: Vec): (r: FuelCapsule)
    ensures !c.attached ==> r == c
    ensures c.attached ==> r.attached && Sub(ship, r.pos) == Scale(Sub(ship, c.pos), 1.0 - FOLLOW_RATE)
  {
    if c.attached then
      c.(pos := Add(c.pos, Scale(Sub(ship, c.pos), FOLLOW_RATE)))
    else
      c
  }

  /** `n` frames behind a ship that stays at `ship`. */
  function Trail(c: FuelCapsule, ship: Vec, n: nat): FuelCapsule
    decreases n
  {
    if n == 0 then c else Follow(Trail(c, ship, n - 1), ship)
  }

  /** Behind a stationary ship the offset decays geometrically: after `n`
      frames it is `0.95^n` of the original, so the capsule approaches the
      ship but never jumps onto it. */
  lemma {:induction false} TrailDecaysGeometrically(c: FuelCapsule, ship: Vec, n: nat)
    requires c.attached
    ensures Trail(c, ship, n).attached
    ensures Sub(ship, Trail(c, ship, n).pos) == Scale(Sub(ship, c.pos), Pow(1.0 - FOLLOW_RATE, n))
    decreases n
  {
    if n > 0 {
      TrailDecaysGeometrically(c, ship, n - 1);
      var d := Sub(ship, c.pos);
      var p := Pow(1.0 - FOLLOW_RATE, n - 1);
      assert d.x * p * (1.0 - FOLLOW_RATE) == d.x * ((1.0 - FOLLOW_RATE) * p);
      assert d.y * p * (1.0 - FOLLOW_RATE) == d.y * ((1.0 - FOLLOW_RATE) * p);
    }
  }
}

=== FILE: contact.dfy ===
/** The ship's own contacts after the bullet sweep: wall grazes and fuel
    tank pickups. */
module Contact {
  import opened Geometry
  import opened Worlds
  import Fuel

  /** Life a wall graze costs. */
  const GRAZE_DAMAGE: real := 0.5
  /** Factor applied to the velocity by each graze: reversed and halved. */
  const KNOCKBACK: real := -0.5

  /** Number of walls whose centre is within collision range of `p`. */
  function Contacts(walls: seq<Wall>, p: Vec): nat
  {
    if walls == [] then 0
    else (if Collides(p, walls[0].rect.center) then 1 else 0) + Contacts(walls[1..], p)
  }

  /** Lives, velocity and game-over flag while walls are checked. */
  datatype Bump = Bump(lives: real, vel: Vec, over: bool)

  /** Checks the walls in order; each overlapping wall costs half a life,
      knocks the ship back, and ends the game once lives are used up. There
      is no grace period: a graze repeats on every frame of contact. */
  function Knockback(walls: seq<Wall>, p: Vec, b: Bump): (r: Bump)
    ensures r.lives == b.lives - GRAZE_DAMAGE * Contacts(walls, p) as real
    ensures r.vel == Scale(b.vel, Pow(KNOCKBACK, Contacts(walls, p)))
    ensures r.over <==> b.over || (Contacts(walls, p) > 0 && r.lives <= 0.0)
    decreases |walls|
  {
    if walls == [] then b
    else
      var next :=
        if Collides(p, walls[0].rect.center) then
          var lives := b.lives - GRAZE_DAMAGE;
          Bump(lives, Scale(b.vel, KNOCKBACK), b.over || lives <= 0.0)
        else b;
      var r := Knockback(walls[1..], p, next);
      ScaleTwice(b.vel, KNOCKBACK, Pow(KNOCKBACK, Contacts(walls[1..], p)));
      r
  }

  lemma ScaleTwice(v: Vec, a: real, c: real)
    ensures Scale(Scale(v, a), c) == Scale(v, a * c)
  {
    assert v.x * a * c == v.x * (a * c);
    assert v.y * a * c == v.y * (a * c);
  }

  /** Applies the wall contacts to the world. */
  function WallContact(w: World): (r: World)
    ensures r.state.lives == w.state.lives - GRAZE_DAMAGE * Contacts(w.walls, w.ship.pos) as real
    ensures r.ship.vel == Scale(w.ship.vel, Pow(KNOCKBACK, Contacts(w.walls, w.ship.pos)))
    ensures r.state.isGameOver <==> w.state.isGameOver || (Contacts(w.walls, w.ship.pos) > 0 && r.state.lives <= 0.0)
    ensures r == w.(ship := r.ship, state := r.state)
    ensures r.ship == w.ship.(vel := r.ship.vel)
    ensures r.state == w.state.(lives := r.state.lives, isGameOver := r.state.isGameOver)
  {
    var b := Knockback(w.walls, w.ship.pos, Bump(w.state.lives, w.ship.vel, w.state.isGameOver));
    w.(ship := w.ship.(vel := b.vel), state := w.state.(lives := b.lives, isGameOver := b.over))
  }

  /** A tank the ship picks up this frame. */
  predicate Pickable(t: Fuel.FuelTank, p: Vec)
  {
    !t.collected && Collides(p, t.pos)
  }

  /** Reference definition: the tanks left, in their order. */
  function Remaining(ts: seq<Fuel.FuelTank>, p: Vec): (r: seq<Fuel.FuelTank>)
    ensures forall j :: 0 <= j < |r| ==> r[j] in ts && !Pickable(r[j], p)
  {
    if ts == [] then [] else (if Pickable(ts[0], p) then [] else [ts[0]]) + Remaining(ts[1..], p)
  }

  /** Reference definition: how many tanks are picked up. */
  function Picked(ts: seq<Fuel.FuelTank>, p: Vec): nat
  {
    if ts == [] then 0 else (if Pickable(ts[0], p) then 1 else 0) + Picked(ts[1..], p)
  }

  lemma {:induction false} RemainingAppend(ts: seq<Fuel.FuelTank>, t: Fuel.FuelTank, p: Vec)
    ensures Remaining(ts + [t], p) == Remaining(ts, p) + (if Pickable(t, p) then [] else [t])
    ensures Picked(ts + [t], p) == Picked(ts, p) + (if Pickable(t, p) then 1 else 0)
    decreases |ts|
  {
    if ts != [] {
      assert (ts + [t])[1..] == ts[1..] + [t];
      RemainingAppend(ts[1..], t, p);
    } else {
      assert [t][1..] == [];
    }
  }

  lemma {:induction false} RefillTimesShift(f: real, k: nat)
    ensures Fuel.RefillTimes(Fuel.Refill(f), k) == Fuel.RefillTimes(f, k + 1)
    decreases k
  {
    if k > 0 {
      RefillTimesShift(f, k - 1);
    }
  }

  /** The tanks left and the fuel after the pickups. */
  datatype Haul = Haul(tanks: seq<Fuel.FuelTank>, fuel: real)

  /** The pickup loop of the game: scan the tanks from the last to the
      first; each one the ship touches refills fuel (clamped at 100) and is
      removed, so it cannot be collected twice. */
  function Collect(ts: seq<Fuel.FuelTank>, p: Vec, fuel: real): (r: Haul)
    ensures r.tanks == Remaining(ts, p)
    ensures r.fuel == Fuel.RefillTimes(fuel, Picked(ts, p))
    decreases |ts|
  {
    if ts == [] then Haul([], fuel)
    else
      var init := ts[..|ts| - 1];
      var last := ts[|ts| - 1];
      var pick := Pickable(last, p);
      var rest := Collect(init, p, if pick then Fuel.Refill(fuel) else fuel);
      assert ts == init + [last];
      RemainingAppend(init, last, p);
      if pick then RefillTimesShift(fuel, Picked(init, p)); Haul(rest.tanks, rest.fuel)
      else Haul(rest.tanks + [last], rest.fuel)
  }

  /** Applies the tank pickups to the world. */
  function CollectTanks(w: World): (r: World)
    ensures r.tanks == Remaining(w.tanks, w.ship.pos)
    ensures r.state.fuel == Fuel.RefillTimes(w.state.fuel, Picked(w.tanks, w.ship.pos))
    ensures r == w.(tanks := r.tanks, state := w.state.(fuel := r.state.fuel))
  {
    var h := Collect(w.tanks, w.ship.pos, w.state.fuel);
    w.(tanks := h.tanks, state := w.state.(fuel := h.fuel))
  }

  /** Picking up `k >= 1` tanks adds `50 k` fuel clamped at 100; none leaves
      the fuel alone. The clamp keeps the gauge at or below 100. */
  lemma PickupFuel(ts: seq<Fuel.FuelTank>, p: Vec, fuel: real)
    ensures var k := Picked(ts, p);
            var r := Collect(ts, p, fuel);
            && (k == 0 ==> r.fuel == fuel)
            && (k >= 1 ==> r.fuel == Fuel.Min(fuel + Fuel.TANK_REFILL * k as real, Fuel.FUEL_CAP))
            && (k >= 1 ==> r.fuel <= Fuel.FUEL_CAP)
  {
    if Picked(ts, p) >= 1 {
      Fuel.RefillsAddUp(fuel, Picked(ts, p));
    }
  }

  lemma {:induction false} NothingLeftToPick(ts: seq<Fuel.FuelTank>, p: Vec)
    ensures Picked(Remaining(ts, p), p) == 0
    ensures Remaining(Remaining(ts, p), p) == Remaining(ts, p)
    decreases |ts|
  {
    if ts != [] {
      NothingLeftToPick(ts[1..], p);
      var rest := Remaining(ts[1..], p);
      if !Pickable(ts[0], p) {
        var kept := [ts[0]] + rest;
        assert Remaining(ts, p) == kept;
        assert kept[0] == ts[0] && kept[1..] == rest;
        assert Picked(kept, p) == Picked(rest, p);
        assert Remaining(kept, p) == [ts[0]] + Remaining(rest, p);
      } else {
        assert Remaining(ts, p) == [] + rest;
        assert [] + rest == rest;
      }
    }
  }

  /** A tank cannot be collected twice: running the pickups again at the same
      spot changes nothing. */
  lemma PickupIsIdempotent(ts: seq<Fuel.FuelTank>, p: Vec, fuel: real)
    ensures var r := Collect(ts, p, fuel);
            Collect(r.tanks, p, r.fuel) == r
  {
    NothingLeftToPick(ts, p);
  }

  /** Wall contacts keep the invariants: a graze that uses up the lives
      ends the game. */
  lemma WallContactSound(w: World, maxLife: int)
    requires Sound(w, maxLife)
    ensures Sound(WallContact(w), maxLife)
  {
  }

  /** Pickups keep the invariants; in particular fuel stays on the gauge. */
  lemma CollectTanksSound(w: World, maxLife: int)
    requires Sound(w, maxLife)
    ensures Sound(CollectTanks(w), maxLife)
  {
    var r := CollectTanks(w);
    RefillKeepsGauge(w.state.fuel, Picked(w.tanks, w.ship.pos));
    forall j | 0 <= j < |r.tanks|
      ensures !r.tanks[j].collected
    {
      assert r.tanks[j] in w.tanks;
    }
  }

  lemma {:induction false} RefillKeepsGauge(f: real, k: nat)
    requires Fuel.OnGauge(f)
    ensures Fuel.OnGauge(Fuel.RefillTimes(f, k))
    decreases k
  {
    if k > 0 {
      RefillKeepsGauge(f, k - 1);
    }
  }
}

=== FILE: controls.dfy ===
/** Keyboard input applied at the start of a frame. */
module Controls {
  import opened Geometry
  import opened Wrappers
  import opened Worlds
  import Bullets
  import Capsules
  import Ships

  /** The five logical keys held during a frame: rotate left (A), rotate
      right (S), thrust (Control), fire (Enter), shield (Space). */
  datatype Keys = Keys(left: bool, right: bool, thrust: bool, fire: bool, shield: bool)

  /** The trigonometry the game delegates to: the unit vector for a ship
      heading, and the unit vector from a turret base towards a target. */
  datatype Trig = Trig(heading: real -> Vec, aimAt: (Vec, Vec) -> Vec)

  /** The fire key's edge detector: whether this frame fires, and the new
      value of the "already fired for this press" flag. */
  datatype Latch = Latch(fires: bool, lastShot: bool)

  /** Fires on the frame the key goes down and not again until it has been
      released. */
  function FireLatch(lastShot: bool, pressed: bool): (r: Latch)
    ensures r.fires <==> pressed && !lastShot
    ensures r.lastShot == pressed
  {
    if pressed then
      if !lastShot then Latch(true, true) else Latch(false, true)
    else
      Latch(false, false)
  }

  /** Shots produced by holding the key down for `n` frames. */
  function ShotsWhileHeld(lastShot: bool, n: nat): nat
    decreases n
  {
    if n == 0 then 0
    else
      var l := FireLatch(lastShot, true);
      (if l.fires then 1 else 0) + ShotsWhileHeld(l.lastShot, n - 1)
  }

  /** Holding fire gives no rapid fire: a press held for any number of frames
      shoots exactly once, and a key still held from an earlier press never
      shoots again. */
  lemma {:induction false} HoldingFireShootsOnce(lastShot: bool, n: nat)
    requires n >= 1
    ensures ShotsWhileHeld(lastShot, n) == if lastShot then 0 else 1
    decreases n
  {
    if n > 1 {
      HoldingFireShootsOnce(true, n - 1);
    }
  }

  /** Whether the shield key picks up the capsule this frame. */
  predicate PicksUpCapsule(w: World, keys: Keys)
  {
    && keys.shield
    && w.capsule.Some?
    && !w.capsule.value.attached
    && Collides(w.ship.pos, w.capsule.value.pos)
  }

  /** Applies the keys. Once the game is over nothing happens. Otherwise the
      ship rotates, takes the thrust and shield keys, picks up a free
      capsule it touches while shielding, and shoots once per press of the
      fire key. */
  function ApplyInput(w: World, keys: Keys, trig: Trig): (r: World)
    ensures w.state.isGameOver ==> r == w
    ensures r.state == w.state.(capsuleAttached := r.state.capsuleAttached)
    ensures r.walls == w.walls && r.turrets == w.turrets && r.plants == w.plants
    ensures r.tanks == w.tanks && r.doors == w.doors
  {
    if w.state.isGameOver then w
    else
      var turned := if keys.left then Ships.RotateLeft(w.ship) else w.ship;
      var turned' := if keys.right then Ships.RotateRight(turned) else turned;
      var ship := turned'.(thrust := keys.thrust, shield := keys.shield);
      var pick := PicksUpCapsule(w, keys);
      var capsule := if pick then Some(Capsules.Attach(w.capsule.value)) else w.capsule;
      var state := if pick then w.state.(capsuleAttached := true) else w.state;
      var latch := FireLatch(w.lastShot, keys.fire);
      var shots := if latch.fires then
                     match Ships.Shoot(ship, w.state.isGameOver, trig.heading)
                     case Some(b) => [b]
                     case None => []
                   else [];
      w.(ship := ship, capsule := capsule, state := state, lastShot := latch.lastShot,
         bullets := w.bullets + shots)
  }

  /** The rotation keys turn the ship by one step each (both cancel out),
      the thrust and shield keys are taken as held, and the ship does not
      move during input. */
  lemma InputSteersShip(w: World, keys: Keys, trig: Trig)
    requires !w.state.isGameOver
    ensures var r := ApplyInput(w, keys, trig);
      && r.ship.turn == w.ship.turn + (if keys.left then Ships.ROTATION_SPEED else 0.0)
                                    - (if keys.right then Ships.ROTATION_SPEED else 0.0)
      && r.ship.thrust == keys.thrust
      && r.ship.shield == keys.shield
      && r.ship.pos == w.ship.pos && r.ship.vel == w.ship.vel
  {
  }

  /** Shielding while touching the free capsule attaches it and sets the
      attached flag; otherwise capsule and game state are unchanged. */
  lemma InputPicksUpCapsule(w: World, keys: Keys, trig: Trig)
    requires !w.state.isGameOver
    ensures var r := ApplyInput(w, keys, trig);
      && r.state == w.state.(capsuleAttached := w.state.capsuleAttached || PicksUpCapsule(w, keys))
      && (PicksUpCapsule(w, keys) ==> r.capsule == Some(Capsules.Attach(w.capsule.value)))
      && (!PicksUpCapsule(w, keys) ==> r.capsule == w.capsule)
  {
  }

  /** The fire key adds one player shot, from the ship along its new heading,
      on the frame it goes down, and the latch records whether it is held. */
  lemma InputFires(w: World, keys: Keys, trig: Trig)
    requires !w.state.isGameOver
    ensures var r := ApplyInput(w, keys, trig);
      && r.lastShot == keys.fire
      && r.bullets == w.bullets +
           (if keys.fire && !w.lastShot
            then [Bullets.Fire(w.ship.pos, Scale(trig.heading(r.ship.turn), Ships.SHOT_SPEED), false)]
            else [])
  {
  }

  /** Input keeps the invariants; a fresh player shot has the full lifespan. */
  lemma ApplyInputSound(w: World, keys: Keys, trig: Trig)
    requires Sound(w, Bullets.LIFESPAN)
    ensures Sound(ApplyInput(w, keys, trig), Bullets.LIFESPAN)
  {
  }
}

=== FILE: door.dfy ===
/** Doors that a shot opens for 300 frames. */
module Doors {
  import opened Geometry

  /** Frames a door stays open after a hit (five seconds at 60 frames/s). */
  const CLOSE_TIME: int := 300

  datatype Door = Door(rect: Rect, open: bool, timer: int)

  function Spawn(rect: Rect): Door
  {
    Door(rect, false, 0)
  }

  /** What every door reachable in the game satisfies. */
  ghost predicate Consistent(d: Door)
  {
    0 <= d.timer <= CLOSE_TIME && (d.open ==> d.timer >= 1)
  }

  /** A hit opens the door and (re)starts the full close timer, whatever
      state the door was in. */
  function Hit(d: Door): (r: Door)
    ensures r.open && r.timer == CLOSE_TIME && r.rect == d.rect
    ensures Consistent(r)
  {
    d.(open := true, timer := CLOSE_TIME)
  }

  /** One frame: an open door counts down and closes when the timer runs
      out; a closed door is unchanged. */
  function Update(d: Door): (r: Door)
    ensures !d.open ==> r == d
    ensures d.open ==> r.timer == d.timer - 1 && (r.open <==> d.timer >= 2)
    ensures r.rect == d.rect
    ensures Consistent(d) ==> Consistent(r)
  {
    if d.open then
      var timer := d.timer - 1;
      d.(timer := timer, open := timer > 0)
    else
      d
  }

  /** `n` frames without hits. */
  function Wait(d: Door, n: nat): Door
    decreases n
  {
    if n == 0 then d else Update(Wait(d, n - 1))
  }

  /** While the timer has not run out, an open door loses one per frame and
      stays open. */
  lemma {:induction false} OpenCountdown(d: Door, n: nat)
    requires d.open && n < d.timer
    ensures Wait(d, n) == d.(timer := d.timer - n)
    decreases n
  {
    if n > 0 {
      OpenCountdown(d, n - 1);
    }
  }

  /** A closed door stays closed and unchanged. */
  lemma {:induction false} ClosedDoorStays(d: Door, n: nat)
    requires !d.open
    ensures Wait(d, n) == d
    decreases n
  {
    if n > 0 {
      ClosedDoorStays(d, n - 1);
    }
  }

  /** After a hit and no further hits, the door is open through 299 updates
      and closed from the 300th update on. */
  lemma OpenForCloseTime(d: Door, n: nat)
    ensures Wait(Hit(d), n).open <==> n < CLOSE_TIME
  {
    var h := Hit(d);
    if n < CLOSE_TIME {
      OpenCountdown(h, n);
    } else {
      OpenCountdown(h, CLOSE_TIME - 1);
      var shut := Wait(h, CLOSE_TIME);
      assert !shut.open;
      ClosedDoorStays(shut, n - CLOSE_TIME);
      WaitAdds(h, CLOSE_TIME, n - CLOSE_TIME);
    }
  }

  /** Waiting `a` frames then `b` frames is waiting `a + b` frames. */
  lemma {:induction false} WaitAdds(d: Door, a: nat, b: nat)
    ensures Wait(Wait(d, a), b) == Wait(d, a + b)
    decreases b
  {
    if b > 0 {
      WaitAdds(d, a, b - 1);
    }
  }
}

=== FILE: frame.dfy ===
/** One frame of the game loop as a function from world to world, and the
    properties that hold across frames. */
module Frame {
  import opened Geometry
  import opened Worlds
  import opened Levels
  import opened Controls
  import Bullets
  import Turrets
  import Fuel
  import Motion
  import Sweep
  import Contact

  /** Score for towing the capsule out of the playfield. */
  const EXIT_BONUS: int := 500

  /** Beyond the playfield: more than 11 units up or down, or more than 16
      units left or right. */
  predicate OutOfBounds(p: Vec)
  {
    p.y > 11.0 || p.y < -11.0 || p.x > 16.0 || p.x < -16.0
  }

  /** The ship has left the playfield with the capsule in tow. */
  predicate Escapes(w: World)
  {
    w.state.capsuleAttached && OutOfBounds(w.ship.pos)
  }

  /** Leaving the playfield with the capsule completes the level and scores
      the exit bonus; nothing else in the world changes. */
  function CheckExit(w: World): (r: World)
    ensures r.state.isLevelComplete == (w.state.isLevelComplete || Escapes(w))
    ensures r.state.score == w.state.score + (if Escapes(w) then EXIT_BONUS else 0)
    ensures r.state.(isLevelComplete := w.state.isLevelComplete, score := w.state.score) == w.state
    ensures r.(state := w.state) == w
  {
    if Escapes(w) then
      w.(state := w.state.(isLevelComplete := true, score := w.state.score + EXIT_BONUS))
    else
      w
  }

  /** A completed level loads the next one and then clears the completion
      and capsule flags and refills the tank. When the catalogue has no
      next level the scene is left empty. */
  function FinishLevel(w: World, levels: seq<LevelData>, random: nat -> Turrets.Unit): World
  {
    if !w.state.isLevelComplete then w
    else
      var l := LoadLevel(w, levels, w.state.level + 1, random);
      l.(state := l.state.(isLevelComplete := false, capsuleAttached := false, fuel := Fuel.INITIAL_FUEL))
  }

  /** Input, then the entity updates. */
  function Moved(w: World, keys: Keys, trig: Trig): World
  {
    Motion.UpdateEntities(ApplyInput(w, keys, trig), trig)
  }

  /** Everything of a frame up to the level transition. */
  function Simulate(w: World, keys: Keys, trig: Trig): World
  {
    CheckExit(Contact.CollectTanks(Contact.WallContact(Sweep.SweepWorld(Moved(w, keys, trig)))))
  }

  /** One whole frame. */
  function Step(w: World, levels: seq<LevelData>, keys: Keys, trig: Trig, random: nat -> Turrets.Unit): World
  {
    FinishLevel(Simulate(w, keys, trig), levels, random)
  }

  /** The level ends this frame: a meltdown ran out, or the ship left the
      playfield with the capsule. */
  predicate Completes(w: World, keys: Keys, trig: Trig)
  {
    Motion.MeltdownCompletes(w.plants) || Escapes(Moved(w, keys, trig))
  }

  /** What the phases after the entity updates leave untouched. */
  lemma AfterMotion(m: World)
    ensures var c := Contact.CollectTanks(Contact.WallContact(Sweep.SweepWorld(m)));
            && c.ship.pos == m.ship.pos
            && c.state.capsuleAttached == m.state.capsuleAttached
            && c.state.score == m.state.score
            && c.state.lives <= m.state.lives
            && c.state.isLevelComplete == m.state.isLevelComplete
            && c.state.level == m.state.level
            && (m.state.isGameOver ==> c.state.isGameOver)
            && |c.bullets| <= |m.bullets|
            && |c.turrets| == |m.turrets|
            && (forall k :: 0 <= k < |m.turrets| && !m.turrets[k].active ==> !c.turrets[k].active)
  {
    Sweep.SweepEffect(m, m.bullets);
    Sweep.SweepKeepsTurretsInactive(m, m.bullets);
  }

  /** A frame scores exactly the meltdown bonus when a meltdown runs out and
      the exit bonus when the ship leaves with the capsule (both when both
      happen); nothing else changes the score. */
  lemma StepScore(w: World, levels: seq<LevelData>, keys: Keys, trig: Trig, random: nat -> Turrets.Unit)
    ensures Step(w, levels, keys, trig, random).state.score ==
      w.state.score
      + (if Motion.MeltdownCompletes(w.plants) then Motion.MELTDOWN_BONUS else 0)
      + (if Escapes(Moved(w, keys, trig)) then EXIT_BONUS else 0)
  {
    var m := Moved(w, keys, trig);
    var c := Contact.CollectTanks(Contact.WallContact(Sweep.SweepWorld(m)));
    AfterMotion(m);
    var e := CheckExit(c);
    assert e == Simulate(w, keys, trig);
    assert e.state.score == m.state.score + (if Escapes(m) then EXIT_BONUS else 0);
    assert m.state.score == w.state.score + (if Motion.MeltdownCompletes(w.plants) then Motion.MELTDOWN_BONUS else 0);
    assert Step(w, levels, keys, trig, random).state.score == e.state.score;
  }

  /** The level advances exactly when it is completed and the catalogue has
      a next level; a completion also clears the flags, refills the tank and
      drops every bullet. */
  lemma StepLevel(w: World, levels: seq<LevelData>, keys: Keys, trig: Trig, random: nat -> Turrets.Unit)
    requires !w.state.isLevelComplete
    ensures var r := Step(w, levels, keys, trig, random);
            && !r.state.isLevelComplete
            && r.state.level == (if Completes(w, keys, trig) && 0 <= w.state.level < |levels|
                                 then w.state.level + 1 else w.state.level)
            && (Completes(w, keys, trig) ==>
                  r.state.fuel == Fuel.INITIAL_FUEL && !r.state.capsuleAttached && r.bullets == [])
            && (Completes(w, keys, trig) && !(0 <= w.state.level < |levels|) ==>
                  r.walls == [] && r.turrets == [] && r.plants == [] && r.tanks == [] && r.doors == [])
  {
    SimulateCompletes(w, keys, trig);
    FinishLevelEffect(Simulate(w, keys, trig), levels, random);
  }

  /** Before the transition, the frame has completed the level exactly when
      `Completes` says so, and the level number is unchanged. */
  lemma SimulateCompletes(w: World, keys: Keys, trig: Trig)
    requires !w.state.isLevelComplete
    ensures var e := Simulate(w, keys, trig);
            && (e.state.isLevelComplete <==> Completes(w, keys, trig))
            && e.state.level == w.state.level
  {
    var m := Moved(w, keys, trig);
    var c := Contact.CollectTanks(Contact.WallContact(Sweep.SweepWorld(m)));
    AfterMotion(m);
    assert CheckExit(c) == Simulate(w, keys, trig);
  }

  /** What the level transition does, in terms of the world it starts from. */
  lemma FinishLevelEffect(e: World, levels: seq<LevelData>, random: nat -> Turrets.Unit)
    ensures var r := FinishLevel(e, levels, random);
            && !r.state.isLevelComplete
            && r.state.level == (if e.state.isLevelComplete && 0 <= e.state.level < |levels|
                                 then e.state.level + 1 else e.state.level)
            && (e.state.isLevelComplete ==>
                  r.state.fuel == Fuel.INITIAL_FUEL && !r.state.capsuleAttached && r.bullets == [])
            && (e.state.isLevelComplete && !(0 <= e.state.level < |levels|) ==>
                  r.walls == [] && r.turrets == [] && r.plants == [] && r.tanks == [] && r.doors == [])
            && (!e.state.isLevelComplete ==> r == e)
  {
  }

  /** What the level transition keeps: lives, score, game over and the fire
      latch. Loading a next level puts the ship at rest on its start. */
  lemma FinishLevelKeeps(e: World, levels: seq<LevelData>, random: nat -> Turrets.Unit)
    ensures var r := FinishLevel(e, levels, random);
            && r.state.lives == e.state.lives && r.state.score == e.state.score
            && r.state.isGameOver == e.state.isGameOver && r.lastShot == e.lastShot
            && (e.state.isLevelComplete && 0 <= e.state.level < |levels| ==>
                  r.ship.pos == levels[e.state.level].start && r.ship.vel == Origin)
  {
  }

  /** No phase of a frame gives a life back: lives only fall, through
      wounds from bullets and grazes against walls. */
  lemma LivesNeverRise(w: World, levels: seq<LevelData>, keys: Keys, trig: Trig, random: nat -> Turrets.Unit)
    ensures Step(w, levels, keys, trig, random).state.lives <= w.state.lives
  {
    var m := Moved(w, keys, trig);
    Sweep.SweepEffect(m, m.bullets);
    AfterMotion(m);
    FinishLevelKeeps(Simulate(w, keys, trig), levels, random);
  }

  /** Game over is final: no frame clears it. */
  lemma GameOverIsSticky(w: World, levels: seq<LevelData>, keys: Keys, trig: Trig, random: nat -> Turrets.Unit)
    requires w.state.isGameOver
    ensures Step(w, levels, keys, trig, random).state.isGameOver
  {
    AfterMotion(Moved(w, keys, trig));
  }

  /** After game over the keys do nothing, the ship neither moves nor shoots
      nor burns fuel, the turrets neither count nor fire, and the frame adds
      no bullet. */
  lemma GameOverFreezesPlay(w: World, levels: seq<LevelData>, keys: Keys, trig: Trig, random: nat -> Turrets.Unit)
    requires w.state.isGameOver
    ensures var m := Moved(w, keys, trig);
            && m.ship == w.ship && m.turrets == w.turrets && m.bullets == w.bullets
            && m.state.fuel == w.state.fuel && m.lastShot == w.lastShot
    ensures |Step(w, levels, keys, trig, random).bullets| <= |w.bullets|
  {
    Motion.MotionAfterGameOver(w, trig);
    AfterMotion(Moved(w, keys, trig));
  }

  /** Within a level no turret is ever reactivated. */
  lemma TurretsStayInactive(w: World, keys: Keys, trig: Trig)
    ensures var r := Simulate(w, keys, trig);
            && |r.turrets| == |w.turrets|
            && forall k :: 0 <= k < |w.turrets| && !w.turrets[k].active ==> !r.turrets[k].active
  {
    AfterMotion(Moved(w, keys, trig));
  }

  /** Within a level a meltdown is never called off: a plant melting down
      before the frame still is after the frame's updates, sweep and
      contacts. */
  lemma MeltdownIsPermanent(w: World, keys: Keys, trig: Trig)
    ensures var r := Simulate(w, keys, trig);
            && |r.plants| == |w.plants|
            && forall k :: 0 <= k < |w.plants| && w.plants[k].meltdown ==> r.plants[k].meltdown
  {
    var a := ApplyInput(w, keys, trig);
    Motion.EntitiesTakeTheirStep(a, trig);
    var m := Moved(w, keys, trig);
    Sweep.SweepKeepsPlantsMelting(m, m.bullets);
  }

  /** Every frame keeps the invariants: fuel stays between 0 and 100 on the
      0.2 grid, used-up lives mean game over, the capsule flag matches the
      capsule, counters and timers stay in range, and once a plant melts
      down every turret is inactive. */
  lemma StepPreservesValid(w: World, levels: seq<LevelData>, keys: Keys, trig: Trig, random: nat -> Turrets.Unit)
    requires Valid(w)
    ensures Valid(Step(w, levels, keys, trig, random))
  {
    var e := Simulate(w, keys, trig);
    SimulateSound(w, keys, trig);
    FinishLevelValid(e, levels, random);
  }

  /** The frame up to the level transition keeps the invariants. */
  lemma SimulateSound(w: World, keys: Keys, trig: Trig)
    requires Valid(w)
    ensures Sound(Simulate(w, keys, trig), Bullets.LIFESPAN - 1)
  {
    var m := Moved(w, keys, trig);
    MovedSound(w, keys, trig);
    var s := Sweep.SweepWorld(m);
    SweepWorldSound(m);
    var c := Contact.WallContact(s);
    Contact.WallContactSound(s, Bullets.LIFESPAN - 1);
    var t := Contact.CollectTanks(c);
    Contact.CollectTanksSound(c, Bullets.LIFESPAN - 1);
    CheckExitSound(t, Bullets.LIFESPAN - 1);
  }

  lemma CheckExitSound(t: World, maxLife: int)
    requires Sound(t, maxLife)
    ensures Sound(CheckExit(t), maxLife)
  {
  }

  lemma MovedSound(w: World, keys: Keys, trig: Trig)
    requires Valid(w)
    ensures Sound(Moved(w, keys, trig), Bullets.LIFESPAN)
  {
    assert Sound(w, Bullets.LIFESPAN);
    ApplyInputSound(w, keys, trig);
    Motion.UpdateEntitiesSound(ApplyInput(w, keys, trig), trig);
  }

  lemma SweepWorldSound(m: World)
    requires Sound(m, Bullets.LIFESPAN)
    ensures Sound(Sweep.SweepWorld(m), Bullets.LIFESPAN - 1)
  {
    Sweep.SweepSound(m, m.bullets, Bullets.LIFESPAN);
  }

  /** The level transition ends the frame in a valid state. */
  lemma FinishLevelValid(e: World, levels: seq<LevelData>, random: nat -> Turrets.Unit)
    requires Sound(e, Bullets.LIFESPAN - 1)
    ensures Valid(FinishLevel(e, levels, random))
  {
    if e.state.isLevelComplete {
      LoadLevelSound(e, levels, e.state.level + 1, random, Bullets.LIFESPAN - 1);
      assert Fuel.OnGauge(Fuel.INITIAL_FUEL) by { assert (5.0 * 100.0).Floor == 500; }
    }
  }
}

=== FILE: fuel.dfy ===
/** The fuel gauge, the thrust cost and the refill tanks. */
module Fuel {
  import opened Geometry

  const INITIAL_FUEL: real := 100.0
  /** Upper bound a tank refill clamps to. */
  const FUEL_CAP: real := 100.0
  /** Fuel a tank adds. */
  const TANK_REFILL: real := 50.0
  /** Fuel one frame of thrust costs. */
  const FUEL_CONSUMPTION: real := 0.2

  /** A refill tank lying in the level. */
  datatype FuelTank = FuelTank(pos: Vec, collected: bool)

  predicate IsWhole(r: real)
  {
    r.Floor as real == r
  }

  /** The values the gauge can show: between 0 and 100 in steps of 0.2.
      With exact arithmetic this is what keeps thrust from ever taking the
      gauge below zero. */
  ghost predicate OnGauge(f: real)
  {
    0.0 <= f <= FUEL_CAP && IsWhole(5.0 * f)
  }

  /** A frame of thrust: the cost is deducted only while fuel is positive. */
  function Burn(f: real): (r: real)
    ensures f > 0.0 ==> r == f - FUEL_CONSUMPTION
    ensures f <= 0.0 ==> r == f
    ensures OnGauge(f) ==> OnGauge(r)
  {
    if f > 0.0 then
      var n := (5.0 * f).Floor;
      assert IsWhole(5.0 * f) ==> 5.0 * (f - FUEL_CONSUMPTION) == (n - 1) as real;
      f - FUEL_CONSUMPTION
    else
      f
  }

  /** A tank pickup: add 50, clamped to 100. */
  function Refill(f: real): (r: real)
    ensures r == Min(f + TANK_REFILL, FUEL_CAP)
    ensures r <= FUEL_CAP
    ensures f <= FUEL_CAP ==> r >= f
    ensures OnGauge(f) ==> OnGauge(r)
  {
    var n := (5.0 * f).Floor;
    assert IsWhole(5.0 * f) ==> 5.0 * (f + TANK_REFILL) == (n + 250) as real;
    if f + TANK_REFILL < FUEL_CAP then f + TANK_REFILL else FUEL_CAP
  }

  /** `k` pickups in a row add `50 k`, clamped once at 100: the clamp of each
      pickup does not lose anything the final clamp would keep. */
  lemma {:induction false} RefillsAddUp(f: real, k: nat)
    requires k >= 1
    ensures RefillTimes(f, k) == Min(f + TANK_REFILL * k as real, FUEL_CAP)
    decreases k
  {
    if k > 1 {
      RefillsAddUp(f, k - 1);
    }
  }

  /** `k` successive pickups. */
  function RefillTimes(f: real, k: nat): real
    decreases k
  {
    if k == 0 then f else Refill(RefillTimes(f, k - 1))
  }

  function Min(a: real, b: real): real
  {
    if a < b then a else b
  }

  function Max(a: real, b: real): real
  {
    if a < b then b else a
  }
}

=== FILE: geometry.dfy ===
/** Plane vectors, rectangles and the centre-distance test that every
    collision in the game uses. */
module Geometry {

  /** A point or displacement in the playfield plane (scene z is always 0). */
  datatype Vec = Vec(x: real, y: real)

  /** An axis-aligned box given by its centre and extents, as level data
      describes walls and doors. */
  datatype Rect = Rect(center: Vec, width: real, height: real)

  const Origin: Vec := Vec(0.0, 0.0)

  function Add(a: Vec, b: Vec): Vec { Vec(a.x + b.x, a.y + b.y) }

  function Sub(a: Vec, b: Vec): Vec { Vec(a.x - b.x, a.y - b.y) }

  function Scale(v: Vec, k: real): Vec { Vec(v.x * k, v.y * k) }

  function Neg(v: Vec): Vec { Vec(-v.x, -v.y) }

  /** Squared centre distance. */
  function DistSq(a: Vec, b: Vec): (d: real)
    ensures d >= 0.0
  {
    var e := Sub(a, b);
    e.x * e.x + e.y * e.y
  }

  /** Two entities collide when their centres are less than one unit apart,
      whatever their size. Compared squared, so no square root is needed. */
  predicate Collides(a: Vec, b: Vec)
  {
    DistSq(a, b) < 1.0
  }

  /** The squared test agrees with the game's `sqrt(dx*dx + dy*dy) < 1`
      for the (unique non-negative) distance `dist`. */
  lemma CollidesIffDistanceBelowOne(a: Vec, b: Vec, dist: real)
    requires dist >= 0.0 && dist * dist == DistSq(a, b)
    ensures Collides(a, b) <==> dist < 1.0
  {
    if dist < 1.0 {
      assert dist * dist <= dist * 1.0;
    } else {
      assert dist * dist >= dist * 1.0;
    }
  }

  /** Collision is symmetric: it does not matter which entity is tested first. */
  lemma CollidesSymmetric(a: Vec, b: Vec)
    ensures Collides(a, b) <==> Collides(b, a)
  {
    assert Sub(a, b) == Neg(Sub(b, a));
  }

  /** `k` to the power `n`. */
  function Pow(k: real, n: nat): real
    decreases n
  {
    if n == 0 then 1.0 else k * Pow(k, n - 1)
  }
}

=== FILE: levels.dfy ===
/** The level catalogue: static data describing each level. */
module Levels {
  import opened Geometry
  import opened Wrappers

  /** One level's layout: wall and door boxes, spawn points and the two
      environment flags. */
  datatype LevelData = LevelData(
    walls: seq<Rect>,
    turrets: seq<Vec>,
    plants: seq<Vec>,
    tanks: seq<Vec>,
    doors: seq<Rect>,
    capsule: Vec,
    start: Vec,
    inverseGravity: bool,
    invisibleWalls: bool)

  function Box(x: real, y: real, width: real, height: real): Rect
  {
    Rect(Vec(x, y), width, height)
  }

  /** The single level the game ships with. */
  function Level1(): LevelData
  {
    LevelData(
      [ Box(0.0, -10.0, 30.0, 1.0),   // floor
        Box(0.0, 10.0, 30.0, 1.0),    // ceiling
        Box(-15.0, 0.0, 1.0, 20.0),   // left wall
        Box(15.0, 0.0, 1.0, 20.0),    // right wall
        Box(-10.0, -5.0, 5.0, 1.0),   // platform 1
        Box(5.0, -3.0, 7.0, 1.0) ],   // platform 2
      [Vec(-10.0, -4.0), Vec(10.0, -9.0)],
      [Vec(-12.0, -8.0)],
      [Vec(0.0, -9.0)],
      [Box(5.0, 0.0, 1.0, 5.0)],
      Vec(10.0, -5.0),
      Vec(-13.0, 8.0),
      false,
      false)
  }

  function Catalog(): seq<LevelData>
  {
    [Level1()]
  }

  /** Bounds-checked lookup by 0-based index: a level exactly when the index
      is in range, and then the catalogue's entry. */
  function GetLevel(levels: seq<LevelData>, index: int): (r: Option<LevelData>)
    ensures r.Some? <==> 0 <= index < |levels|
    ensures r.Some? ==> r.value == levels[index]
  {
    if 0 <= index < |levels| then Some(levels[index]) else None
  }

  /** The shipped catalogue ends after level 1: the lookup made when level 1
      is completed (index 1) finds nothing. */
  lemma CatalogEndsAfterLevelOne()
    ensures GetLevel(Catalog(), 0) == Some(Level1())
    ensures GetLevel(Catalog(), 1) == None
  {
  }

  /** Level 1 starts the ship clear of every wall and of the capsule, so the
      first frame costs no life and picks nothing up. */
  lemma Level1StartsClear()
    ensures forall k :: 0 <= k < |Level1().walls| ==> !Collides(Level1().start, Level1().walls[k].center)
    ensures !Collides(Level1().start, Level1().capsule)
  {
  }
}

=== FILE: motion.dfy ===
/** The entity updates of a frame: ship, capsule, turrets, power plants
    (with the meltdown bonus) and doors, in that order. */
module Motion {
  import opened Geometry
  import opened Wrappers
  import opened Worlds
  import opened Controls
  import Bullets
  import Turrets
  import PowerPlants
  import Doors
  import Capsules
  import Ships

  /** Score for sitting out a meltdown until it ends the level. */
  const MELTDOWN_BONUS: int := 1000

  /** The turrets after their frame and the shots they fired, in turret
      order. */
  datatype Volley = Volley(turrets: seq<Turrets.Turret>, shots: seq<Bullets.Bullet>)

  /** Each turret's own step, in turret order. */
  function Steps(ts: seq<Turrets.Turret>, gameOver: bool, target: Vec, aimAt: (Vec, Vec) -> Vec): (r: seq<Turrets.TurretStep>)
    ensures |r| == |ts|
    ensures forall k :: 0 <= k < |ts| ==> r[k] == Turrets.Update(ts[k], gameOver, target, aimAt)
  {
    seq(|ts|, k requires 0 <= k < |ts| => Turrets.Update(ts[k], gameOver, target, aimAt))
  }

  /** The shots actually fired by a run of turret steps, in order. */
  function Fired(steps: seq<Turrets.TurretStep>): (r: seq<Bullets.Bullet>)
    ensures |r| <= |steps|
    ensures forall j :: 0 <= j < |r| ==> exists k :: 0 <= k < |steps| && steps[k].shot == Some(r[j])
  {
    if steps == [] then []
    else
      var rest := Fired(steps[1..]);
      assert forall j :: 0 <= j < |rest| ==> exists k :: 0 <= k < |steps[1..]| && steps[1..][k].shot == Some(rest[j]);
      (if steps[0].shot.Some? then [steps[0].shot.value] else []) + rest
  }

  /** Updates every turret in order, collecting the shots: the turrets are
      their own steps and the shots are exactly those steps' shots, in
      turret order. */
  function FireTurrets(ts: seq<Turrets.Turret>, gameOver: bool, target: Vec, aimAt: (Vec, Vec) -> Vec): (r: Volley)
    ensures |r.turrets| == |ts|
    ensures forall k :: 0 <= k < |ts| ==> r.turrets[k] == Turrets.Update(ts[k], gameOver, target, aimAt).turret
    ensures r.shots == Fired(Steps(ts, gameOver, target, aimAt))
    ensures |r.shots| <= |ts|
    ensures forall j :: 0 <= j < |r.shots| ==> r.shots[j].hostile && r.shots[j].lifespan == Bullets.LIFESPAN
    ensures gameOver ==> r.turrets == ts && r.shots == []
    decreases |ts|
  {
    if ts == [] then Volley([], [])
    else
      var step := Turrets.Update(ts[0], gameOver, target, aimAt);
      var rest := FireTurrets(ts[1..], gameOver, target, aimAt);
      assert Steps(ts, gameOver, target, aimAt)[1..] == Steps(ts[1..], gameOver, target, aimAt);
      Volley([step.turret] + rest.turrets, (if step.shot.Some? then [step.shot.value] else []) + rest.shots)
  }

  function TickPlants(ps: seq<PowerPlants.PowerPlant>): (r: seq<PowerPlants.PowerPlant>)
    ensures |r| == |ps|
    ensures forall k :: 0 <= k < |ps| ==> r[k] == PowerPlants.Update(ps[k]).plant
  {
    seq(|ps|, k requires 0 <= k < |ps| => PowerPlants.Update(ps[k]).plant)
  }

  function TickDoors(ds: seq<Doors.Door>): (r: seq<Doors.Door>)
    ensures |r| == |ds|
    ensures forall k :: 0 <= k < |ds| ==> r[k] == Doors.Update(ds[k])
  {
    seq(|ds|, k requires 0 <= k < |ds| => Doors.Update(ds[k]))
  }

  /** Some melting plant is on the last frame of its countdown. */
  predicate MeltdownCompletes(ps: seq<PowerPlants.PowerPlant>)
  {
    exists k :: 0 <= k < |ps| && ps[k].meltdown && ps[k].meltdownTimer <= 1
  }

  /** Advances every entity by a frame. A plant whose meltdown runs out
      completes the level and awards the meltdown bonus. After game over the
      ship and the turrets stay as they are. */
  function UpdateEntities(w: World, trig: Trig): (r: World)
    ensures r.state.score == w.state.score + (if MeltdownCompletes(w.plants) then MELTDOWN_BONUS else 0)
    ensures r.state.isLevelComplete <==> w.state.isLevelComplete || MeltdownCompletes(w.plants)
    ensures r.state == w.state.(fuel := r.state.fuel, score := r.state.score, isLevelComplete := r.state.isLevelComplete)
  {
    var flown := Ships.Update(w.ship, w.state.isGameOver, w.state.fuel, w.state.inverseGravity, trig.heading);
    var capsule := if w.capsule.Some? then Some(Capsules.Follow(w.capsule.value, flown.ship.pos)) else None;
    var volley := FireTurrets(w.turrets, w.state.isGameOver, flown.ship.pos, trig.aimAt);
    var complete := AnyComplete(w.plants);
    var state := w.state.(
      fuel := flown.fuel,
      score := if complete then w.state.score + MELTDOWN_BONUS else w.state.score,
      isLevelComplete := w.state.isLevelComplete || complete);
    w.(state := state, ship := flown.ship, capsule := capsule, turrets := volley.turrets,
       bullets := w.bullets + volley.shots, plants := TickPlants(w.plants), doors := TickDoors(w.doors))
  }

  /** The entity updates leave the walls, tanks, latch and controls alone,
      keep every turret's activity, and only append turret shots, each
      hostile and fresh, at most one per turret. */
  lemma MotionFrame(w: World, trig: Trig)
    ensures var r := UpdateEntities(w, trig);
      && r.walls == w.walls && r.tanks == w.tanks && r.lastShot == w.lastShot
      && r.ship.turn == w.ship.turn && r.ship.thrust == w.ship.thrust && r.ship.shield == w.ship.shield
      && (r.capsule.Some? <==> w.capsule.Some?)
      && |r.turrets| == |w.turrets|
      && (forall k :: 0 <= k < |w.turrets| ==> r.turrets[k].active == w.turrets[k].active)
      && |w.bullets| <= |r.bullets| <= |w.bullets| + |w.turrets|
      && r.bullets[..|w.bullets|] == w.bullets
      && (forall j :: |w.bullets| <= j < |r.bullets| ==>
            r.bullets[j].hostile && r.bullets[j].lifespan == Bullets.LIFESPAN)
  {
    var r := UpdateEntities(w, trig);
    assert r.bullets[..|w.bullets|] == w.bullets;
  }

  /** Every entity takes its own step: the ship flies (burning fuel), the
      capsule follows the ship's new position, the turrets aim at it and
      their shots are appended, and every plant and door ticks. */
  lemma EntitiesTakeTheirStep(w: World, trig: Trig)
    ensures var r := UpdateEntities(w, trig);
      var flown := Ships.Update(w.ship, w.state.isGameOver, w.state.fuel, w.state.inverseGravity, trig.heading);
      var volley := FireTurrets(w.turrets, w.state.isGameOver, flown.ship.pos, trig.aimAt);
      && r.ship == flown.ship && r.state.fuel == flown.fuel
      && r.capsule == (if w.capsule.Some? then Some(Capsules.Follow(w.capsule.value, flown.ship.pos)) else None)
      && r.turrets == volley.turrets
      && r.bullets == w.bullets + volley.shots
      && r.plants == TickPlants(w.plants)
      && r.doors == TickDoors(w.doors)
  {
  }

  /** After game over the ship does not move or burn fuel and the turrets
      neither count nor fire. */
  lemma MotionAfterGameOver(w: World, trig: Trig)
    requires w.state.isGameOver
    ensures var r := UpdateEntities(w, trig);
      r.ship == w.ship && r.turrets == w.turrets && r.bullets == w.bullets && r.state.fuel == w.state.fuel
  {
  }

  /** Whether some plant's update reports its meltdown complete. */
  function AnyComplete(ps: seq<PowerPlants.PowerPlant>): (b: bool)
    ensures b <==> MeltdownCompletes(ps)
  {
    exists k :: 0 <= k < |ps| && PowerPlants.Update(ps[k]).complete
  }

  /** The entity updates keep every invariant. */
  lemma UpdateEntitiesSound(w: World, trig: Trig)
    requires Sound(w, Bullets.LIFESPAN)
    ensures Sound(UpdateEntities(w, trig), Bullets.LIFESPAN)
  {
    var r := UpdateEntities(w, trig);
    MotionFrame(w, trig);
    var flown := Ships.Update(w.ship, w.state.isGameOver, w.state.fuel, w.state.inverseGravity, trig.heading);
    var volley := FireTurrets(w.turrets, w.state.isGameOver, flown.ship.pos, trig.aimAt);
    assert r.turrets == volley.turrets;
    forall k | 0 <= k < |r.turrets|
      ensures 0.0 <= r.turrets[k].fireCounter < Turrets.FIRE_RATE
    {
      assert 0.0 <= w.turrets[k].fireCounter < Turrets.FIRE_RATE;
    }
    forall k | 0 <= k < |r.plants|
      ensures PowerPlants.Consistent(r.plants[k])
    {
      assert PowerPlants.Consistent(w.plants[k]);
    }
    forall k | 0 <= k < |r.doors|
      ensures Doors.Consistent(r.doors[k])
    {
      assert Doors.Consistent(w.doors[k]);
    }
    if AnyMeltdown(r.plants) {
      var k :| 0 <= k < |r.plants| && r.plants[k].meltdown;
      assert w.plants[k].meltdown;
    }
    forall j | 0 <= j < |r.bullets|
      ensures 1 <= r.bullets[j].lifespan <= Bullets.LIFESPAN
    {
      if j < |w.bullets| {
        assert r.bullets[j] == r.bullets[..|w.bullets|][j];
      }
    }
  }
}

=== FILE: power_plant.dfy ===
/** The reactor: three hits start an irreversible meltdown that ends the
    level 600 frames later. */
module PowerPlants {
  import opened Geometry

  const INITIAL_HEALTH: int := 3
  /** Length of the meltdown countdown (ten seconds at 60 frames/s). */
  const MELTDOWN_FRAMES: int := 600

  datatype PowerPlant = PowerPlant(pos: Vec, health: int, meltdown: bool, meltdownTimer: int)

  function Spawn(pos: Vec): PowerPlant
  {
    PowerPlant(pos, INITIAL_HEALTH, false, MELTDOWN_FRAMES)
  }

  /** What every plant reachable in the game satisfies: the meltdown flag is
      set exactly when health is used up, and the countdown only runs
      during a meltdown. */
  ghost predicate Consistent(p: PowerPlant)
  {
    && p.health <= INITIAL_HEALTH
    && (p.meltdown <==> p.health <= 0)
    && p.meltdownTimer <= MELTDOWN_FRAMES
    && (!p.meltdown ==> p.meltdownTimer == MELTDOWN_FRAMES)
  }

  /** The plant after a hit and the hit's return value (`critical`: health
      is used up). */
  datatype HitResult = HitResult(plant: PowerPlant, critical: bool)

  /** A bullet hit: one point of health is lost; when none is left the
      meltdown starts. */
  function Hit(p: PowerPlant): (r: HitResult)
    ensures r.plant.health == p.health - 1
    ensures r.critical <==> p.health <= 1
    ensures r.plant.meltdown <==> p.meltdown || r.critical
    ensures r.plant.pos == p.pos && r.plant.meltdownTimer == p.meltdownTimer
    ensures Consistent(p) ==> Consistent(r.plant) && (r.critical <==> r.plant.meltdown)
  {
    var q := p.(health := p.health - 1);
    if q.health <= 0 then HitResult(StartMeltdown(q), true) else HitResult(q, false)
  }

  function StartMeltdown(p: PowerPlant): PowerPlant
  {
    p.(meltdown := true)
  }

  /** The plant after a frame and whether its meltdown has run out. */
  datatype Tick = Tick(plant: PowerPlant, complete: bool)

  /** One frame: a calm plant is unchanged and reports nothing; a melting
      plant counts down and reports completion once the timer reaches 0. */
  function Update(p: PowerPlant): (r: Tick)
    ensures !p.meltdown ==> r.plant == p && !r.complete
    ensures p.meltdown ==> r.plant == p.(meltdownTimer := p.meltdownTimer - 1)
    ensures r.complete <==> p.meltdown && p.meltdownTimer <= 1
    ensures Consistent(p) ==> Consistent(r.plant)
  {
    if p.meltdown then
      var q := p.(meltdownTimer := p.meltdownTimer - 1);
      Tick(q, q.meltdownTimer <= 0)
    else
      Tick(p, false)
  }

  /** `n` frames of updates. */
  function Countdown(p: PowerPlant, n: nat): PowerPlant
    decreases n
  {
    if n == 0 then p else Update(Countdown(p, n - 1)).plant
  }

  /** A fresh plant survives two hits and melts down on the third. */
  lemma ThirdHitStartsMeltdown(pos: Vec)
    ensures var h1 := Hit(Spawn(pos));
            var h2 := Hit(h1.plant);
            var h3 := Hit(h2.plant);
            && !h1.critical && !h1.plant.meltdown
            && !h2.critical && !h2.plant.meltdown
            && h3.critical && h3.plant.meltdown
  {
  }

  /** During a meltdown each frame takes exactly one off the timer; a calm
      plant does not change at all. */
  lemma {:induction false} CountdownTimer(p: PowerPlant, n: nat)
    ensures p.meltdown ==> Countdown(p, n) == p.(meltdownTimer := p.meltdownTimer - n)
    ensures !p.meltdown ==> Countdown(p, n) == p
    decreases n
  {
    if n > 0 {
      CountdownTimer(p, n - 1);
    }
  }

  /** Once a meltdown starts (timer at 600), the plant first reports
      completion on the 600th frame, and keeps reporting it afterwards. */
  lemma MeltdownLastsSixHundredFrames(p: PowerPlant, n: nat)
    requires p.meltdown && p.meltdownTimer == MELTDOWN_FRAMES && 1 <= n
    ensures Update(Countdown(p, n - 1)).complete <==> n >= MELTDOWN_FRAMES
  {
    CountdownTimer(p, n - 1);
  }

  /** A plant that is not melting down never reports completion. */
  lemma CalmPlantNeverCompletes(p: PowerPlant, n: nat)
    requires !p.meltdown
    ensures !Update(Countdown(p, n)).complete
  {
    CountdownTimer(p, n);
  }
}

=== FILE: ship.dfy ===
/** The player's ship: thrust, gravity, friction and firing. */
module Ships {
  import opened Geometry
  import opened Wrappers
  import Bullets
  import Fuel

  const GRAVITY: real := 0.005
  const THRUST_POWER: real := 0.01
  const ROTATION_SPEED: real := 0.05
  const FRICTION: real := 0.99
  /** Speed of a player shot. */
  const SHOT_SPEED: real := 0.3

  /** `turn` is the ship's heading angle measured from its starting
      orientation (pointing right); the unit vector it stands for is given
      by a `heading` function the caller supplies. */
  datatype Ship = Ship(pos: Vec, vel: Vec, turn: real, thrust: bool, shield: bool)

  function Spawn(): Ship
  {
    Ship(Origin, Origin, 0.0, false, false)
  }

  /** The ship after a frame, with the fuel left in the tank. */
  datatype ShipStep = ShipStep(ship: Ship, fuel: real)

  /** Gravity pulls down, or up when the level inverts it. */
  function Gravity(inverse: bool): Vec
  {
    Vec(0.0, if inverse then GRAVITY else -GRAVITY)
  }

  /** Whether this frame's thrust takes effect. */
  predicate Thrusting(s: Ship, fuel: real)
  {
    s.thrust && fuel > 0.0
  }

  /** One frame of flight. Once the game is over nothing changes. Otherwise
      thrust (only while fuel is left) adds an impulse along the heading and
      burns fuel; gravity always acts; friction damps both components; the
      position moves by the new velocity. */
  function Update(s: Ship, gameOver: bool, fuel: real, inverseGravity: bool, heading: real -> Vec): (r: ShipStep)
    ensures gameOver ==> r == ShipStep(s, fuel)
    ensures !gameOver ==> r.ship.pos == Add(s.pos, r.ship.vel)
    ensures !gameOver ==> r.fuel == (if Thrusting(s, fuel) then fuel - Fuel.FUEL_CONSUMPTION else fuel)
    ensures r.ship.turn == s.turn && r.ship.thrust == s.thrust && r.ship.shield == s.shield
    ensures Fuel.OnGauge(fuel) ==> Fuel.OnGauge(r.fuel)
  {
    if gameOver then ShipStep(s, fuel)
    else
      var impulse := if Thrusting(s, fuel) then Scale(heading(s.turn), THRUST_POWER) else Origin;
      var fuel' := if s.thrust then Fuel.Burn(fuel) else fuel;
      var vel := Scale(Add(Add(s.vel, impulse), Gravity(inverseGravity)), FRICTION);
      ShipStep(s.(vel := vel, pos := Add(s.pos, vel)), fuel')
  }

  /** Thrust is the only difference between a thrusting and a coasting frame:
      with fuel the thrusting ship is faster by exactly one damped impulse
      along its heading; without fuel the two frames are identical. */
  lemma ThrustOnlyWithFuel(s: Ship, fuel: real, inverseGravity: bool, heading: real -> Vec)
    ensures var on := Update(s.(thrust := true), false, fuel, inverseGravity, heading);
            var off := Update(s.(thrust := false), false, fuel, inverseGravity, heading);
            && (fuel > 0.0 ==> on.ship.vel == Add(off.ship.vel, Scale(heading(s.turn), THRUST_POWER * FRICTION)))
            && (fuel > 0.0 ==> on.fuel == off.fuel - Fuel.FUEL_CONSUMPTION)
            && (fuel <= 0.0 ==> on.ship.vel == off.ship.vel && on.fuel == off.fuel)
  {
    var h := heading(s.turn);
    var g := Gravity(inverseGravity);
    assert (s.vel.x + h.x * THRUST_POWER + g.x) * FRICTION
        == (s.vel.x + g.x) * FRICTION + h.x * (THRUST_POWER * FRICTION);
    assert (s.vel.y + h.y * THRUST_POWER + g.y) * FRICTION
        == (s.vel.y + g.y) * FRICTION + h.y * (THRUST_POWER * FRICTION);
  }

  /** A coasting frame: gravity acts only vertically, and friction damps
      both components after gravity is added. So the horizontal speed decays
      by the friction factor and strictly shrinks unless it is 0. Together
      with `ThrustOnlyWithFuel` this pins the new velocity in every case. */
  lemma CoastingVelocity(s: Ship, fuel: real, inverseGravity: bool, heading: real -> Vec)
    requires !Thrusting(s, fuel)
    ensures var v := Update(s, false, fuel, inverseGravity, heading).ship.vel;
            && v.x == FRICTION * s.vel.x
            && v.y == FRICTION * (s.vel.y + Gravity(inverseGravity).y)
            && (s.vel.x != 0.0 ==> (if v.x < 0.0 then -v.x else v.x) < (if s.vel.x < 0.0 then -s.vel.x else s.vel.x))
  {
  }

  /** From rest and without thrust, the ship starts falling towards the floor,
      or towards the ceiling when gravity is inverted. */
  lemma GravityDirection(s: Ship, fuel: real, inverseGravity: bool, heading: real -> Vec)
    requires s.vel == Origin && !Thrusting(s, fuel)
    ensures var v := Update(s, false, fuel, inverseGravity, heading).ship.vel;
            v.x == 0.0 && (v.y > 0.0 <==> inverseGravity) && v.y != 0.0
  {
  }

  /** `n` frames of a running game. */
  function Fly(s: Ship, fuel: real, n: nat, inverseGravity: bool, heading: real -> Vec): ShipStep
    decreases n
  {
    if n == 0 then ShipStep(s, fuel)
    else
      var prev := Fly(s, fuel, n - 1, inverseGravity, heading);
      Update(prev.ship, false, prev.fuel, inverseGravity, heading)
  }

  /** Holding thrust for `n` frames leaves exactly `max(0, fuel - 0.2 n)`:
      fuel drops by 0.2 per frame and stops at exactly 0, never below. */
  lemma {:induction false} FuelAfterThrust(s: Ship, fuel: real, n: nat, inverseGravity: bool, heading: real -> Vec)
    requires s.thrust && Fuel.OnGauge(fuel)
    ensures Fly(s, fuel, n, inverseGravity, heading).fuel == Fuel.Max(0.0, fuel - Fuel.FUEL_CONSUMPTION * n as real)
    ensures Fly(s, fuel, n, inverseGravity, heading).ship.thrust
    ensures Fuel.OnGauge(Fly(s, fuel, n, inverseGravity, heading).fuel)
    decreases n
  {
    if n > 0 {
      FuelAfterThrust(s, fuel, n - 1, inverseGravity, heading);
      var prev := Fly(s, fuel, n - 1, inverseGravity, heading);
      if prev.fuel > 0.0 {
        var k := (5.0 * prev.fuel).Floor;
        assert k >= 1;
      }
    }
  }

  function RotateLeft(s: Ship): Ship
  {
    s.(turn := s.turn + ROTATION_SPEED)
  }

  function RotateRight(s: Ship): Ship
  {
    s.(turn := s.turn - ROTATION_SPEED)
  }

  /** A player shot: none once the game is over; otherwise a yellow
      (non-hostile) bullet from the ship's centre along its heading. */
  function Shoot(s: Ship, gameOver: bool, heading: real -> Vec): (r: Option<Bullets.Bullet>)
    ensures r.None? <==> gameOver
    ensures r.Some? ==>
      && !r.value.hostile
      && r.value.pos == s.pos
      && r.value.vel == Scale(heading(s.turn), SHOT_SPEED)
      && r.value.lifespan == Bullets.LIFESPAN
  {
    if gameOver then None else Some(Bullets.Fire(s.pos, Scale(heading(s.turn), SHOT_SPEED), false))
  }
}

=== FILE: sweep.dfy ===
/** The per-frame bullet sweep: every bullet flies one frame, is tested
    against walls, closed doors, power plants and (for turret shots) the
    ship, and is kept or removed. The list is scanned from the last bullet
    to the first, so later bullets are resolved first and see the world
    without the effects of the earlier ones. */
module Sweep {
  import opened Geometry
  import opened Worlds
  import Bullets
  import Turrets
  import PowerPlants
  import Doors

  /** Where a bullet is after this frame's flight (the point that is
      tested for collisions). */
  function Landing(b: Bullets.Bullet): Vec
  {
    Add(b.pos, b.vel)
  }

  predicate HitsWall(walls: seq<Wall>, p: Vec)
  {
    exists k :: 0 <= k < |walls| && Collides(p, walls[k].rect.center)
  }

  predicate HitsClosedDoor(doors: seq<Doors.Door>, p: Vec)
  {
    exists k :: 0 <= k < |doors| && !doors[k].open && Collides(p, doors[k].rect.center)
  }

  predicate HitsPlant(plants: seq<PowerPlants.PowerPlant>, p: Vec)
  {
    exists k :: 0 <= k < |plants| && Collides(p, plants[k].pos)
  }

  /** Every closed door at `p` is hit (and so opens); open doors let the
      bullet through. */
  function KnockDoors(doors: seq<Doors.Door>, p: Vec): (r: seq<Doors.Door>)
    ensures |r| == |doors|
    ensures forall k :: 0 <= k < |doors| ==>
      r[k] == (if !doors[k].open && Collides(p, doors[k].rect.center) then Doors.Hit(doors[k]) else doors[k])
  {
    seq(|doors|, k requires 0 <= k < |doors| =>
      if !doors[k].open && Collides(p, doors[k].rect.center) then Doors.Hit(doors[k]) else doors[k])
  }

  /** Every plant at `p` takes a hit. */
  function StrikePlants(plants: seq<PowerPlants.PowerPlant>, p: Vec): (r: seq<PowerPlants.PowerPlant>)
    ensures |r| == |plants|
    ensures forall k :: 0 <= k < |plants| ==>
      r[k] == (if Collides(p, plants[k].pos) then PowerPlants.Hit(plants[k]).plant else plants[k])
  {
    seq(|plants|, k requires 0 <= k < |plants| =>
      if Collides(p, plants[k].pos) then PowerPlants.Hit(plants[k]).plant else plants[k])
  }

  /** Some plant hit at `p` is in meltdown right after the hit, whether the
      hit started the meltdown or it was already running. The game
      deactivates all turrets once per such plant; doing it once is the
      same, since deactivation is idempotent. */
  predicate MeltdownStruck(plants: seq<PowerPlants.PowerPlant>, p: Vec)
  {
    exists k :: 0 <= k < |plants| && Collides(p, plants[k].pos) && PowerPlants.Hit(plants[k]).plant.meltdown
  }

  function DeactivateAll(ts: seq<Turrets.Turret>): (r: seq<Turrets.Turret>)
    ensures |r| == |ts|
    ensures forall k :: 0 <= k < |ts| ==> r[k] == Turrets.Deactivate(ts[k])
  {
    seq(|ts|, k requires 0 <= k < |ts| => Turrets.Deactivate(ts[k]))
  }

  /** A turret shot reaches the ship without a shield. */
  predicate Wounds(w: World, b: Bullets.Bullet)
  {
    b.hostile && Collides(Landing(b), w.ship.pos) && !w.ship.shield
  }

  /** A turret shot reaches the shielded ship. */
  predicate Deflects(w: World, b: Bullets.Bullet)
  {
    b.hostile && Collides(Landing(b), w.ship.pos) && w.ship.shield
  }

  /** The world after one bullet is resolved, the bullet itself, and whether
      it leaves the list. */
  datatype Verdict = Verdict(world: World, bullet: Bullets.Bullet, remove: bool)

  /** Resolves one bullet against the world. */
  function Resolve(w: World, b: Bullets.Bullet): Verdict
  {
    var t := Bullets.Update(b);
    var p := t.bullet.pos;
    var hitWall := HitsWall(w.walls, p);
    var hitDoor := HitsClosedDoor(w.doors, p);
    var hitPlant := HitsPlant(w.plants, p);
    var turrets := if MeltdownStruck(w.plants, p) then DeactivateAll(w.turrets) else w.turrets;
    var struck := t.bullet.hostile && Collides(p, w.ship.pos);
    var wounded := struck && !w.ship.shield;
    var lives := if wounded then w.state.lives - 1.0 else w.state.lives;
    var over := w.state.isGameOver || (wounded && lives <= 0.0);
    var bullet := if struck && w.ship.shield then Bullets.Reflect(t.bullet) else t.bullet;
    var world := w.(doors := KnockDoors(w.doors, p), plants := StrikePlants(w.plants, p), turrets := turrets,
                    state := w.state.(lives := lives, isGameOver := over));
    Verdict(world, bullet, !t.alive || hitWall || hitDoor || hitPlant || wounded)
  }

  /** A bullet leaves the list when its life runs out or it lands on a wall,
      a closed door, a plant, or the unshielded ship; a turret shot that
      lands on the shielded ship turns back as a player shot. */
  lemma ResolveVerdict(w: World, b: Bullets.Bullet)
    ensures var v := Resolve(w, b);
      && (v.remove <==>
           || b.lifespan <= 1
           || HitsWall(w.walls, Landing(b))
           || HitsClosedDoor(w.doors, Landing(b))
           || HitsPlant(w.plants, Landing(b))
           || Wounds(w, b))
      && (Deflects(w, b) ==> v.bullet == Bullets.Reflect(Bullets.Update(b).bullet))
      && (!Deflects(w, b) ==> v.bullet == Bullets.Update(b).bullet)
  {
  }

  /** What one bullet does to the world: a wound costs a life (and ends the
      game when none are left), closed doors it lands on open, plants it
      lands on are hit, a plant pushed into meltdown silences every turret,
      and nothing else changes. */
  lemma ResolveWorld(w: World, b: Bullets.Bullet)
    ensures var v := Resolve(w, b);
      && v.world.state.lives == w.state.lives - (if Wounds(w, b) then 1.0 else 0.0)
      && (v.world.state.isGameOver <==> w.state.isGameOver || (Wounds(w, b) && v.world.state.lives <= 0.0))
      && v.world.doors == KnockDoors(w.doors, Landing(b))
      && v.world.plants == StrikePlants(w.plants, Landing(b))
      && v.world.turrets == (if MeltdownStruck(w.plants, Landing(b)) then DeactivateAll(w.turrets) else w.turrets)
      && v.world == w.(doors := v.world.doors, plants := v.world.plants, turrets := v.world.turrets,
                       state := w.state.(lives := v.world.state.lives, isGameOver := v.world.state.isGameOver))
  {
  }

  /** The surviving bullets of a run of verdicts, in their order. */
  function Survivors(vs: seq<Verdict>): (r: seq<Bullets.Bullet>)
    ensures |r| <= |vs|
  {
    if vs == [] then [] else (if vs[0].remove then [] else [vs[0].bullet]) + Survivors(vs[1..])
  }

  /** Result of a sweep: the world afterwards, the bullets kept, and the
      verdict for each bullet of the input, aligned with it. */
  datatype Outcome = Outcome(world: World, kept: seq<Bullets.Bullet>, verdicts: seq<Verdict>)

  /** The sweep as a recursive reference definition: the later bullets
      `bs[1..]` are resolved first, then `bs[0]` in the world they leave. */
  function Scan(w: World, bs: seq<Bullets.Bullet>): (o: Outcome)
    ensures |o.verdicts| == |bs| && |o.world.turrets| == |w.turrets|
    decreases |bs|
  {
    if bs == [] then Outcome(w, [], [])
    else
      var later := Scan(w, bs[1..]);
      var v := Resolve(later.world, bs[0]);
      Outcome(v.world, (if v.remove then [] else [v.bullet]) + later.kept, [v] + later.verdicts)
  }

  /** A sweep gives one verdict per bullet and keeps exactly the survivors;
      it never adds lives, never clears game over, and changes nothing but
      the doors, plants, turrets, lives and game-over flag. */
  lemma {:induction false} SweepEffect(w: World, bs: seq<Bullets.Bullet>)
    ensures var o := Scan(w, bs);
      && |o.verdicts| == |bs|
      && o.kept == Survivors(o.verdicts)
      && o.world.state.lives <= w.state.lives
      && (w.state.isGameOver ==> o.world.state.isGameOver)
      && o.world == w.(doors := o.world.doors, plants := o.world.plants, turrets := o.world.turrets,
                       state := w.state.(lives := o.world.state.lives, isGameOver := o.world.state.isGameOver))
      && |o.world.doors| == |w.doors| && |o.world.plants| == |w.plants| && |o.world.turrets| == |w.turrets|
    decreases |bs|
  {
    if bs != [] {
      SweepEffect(w, bs[1..]);
      ResolveWorld(Scan(w, bs[1..]).world, bs[0]);
    }
  }

  /** No bullet reactivates a turret. */
  lemma {:induction false} SweepKeepsTurretsInactive(w: World, bs: seq<Bullets.Bullet>)
    ensures forall k :: 0 <= k < |w.turrets| && !w.turrets[k].active ==> !Scan(w, bs).world.turrets[k].active
    decreases |bs|
  {
    if bs != [] {
      SweepKeepsTurretsInactive(w, bs[1..]);
      SweepEffect(w, bs[1..]);
      ResolveWorld(Scan(w, bs[1..]).world, bs[0]);
    }
  }

  /** No bullet ends a meltdown: a plant that is melting down before the
      sweep still is after it. */
  lemma {:induction false} SweepKeepsPlantsMelting(w: World, bs: seq<Bullets.Bullet>)
    ensures |Scan(w, bs).world.plants| == |w.plants|
    ensures forall k :: 0 <= k < |w.plants| && w.plants[k].meltdown ==> Scan(w, bs).world.plants[k].meltdown
    decreases |bs|
  {
    SweepEffect(w, bs);
    if bs != [] {
      SweepKeepsPlantsMelting(w, bs[1..]);
      SweepEffect(w, bs[1..]);
      ResolveWorld(Scan(w, bs[1..]).world, bs[0]);
    }
  }

  /** The frame's sweep applied to the world's own bullet list. */
  function SweepWorld(w: World): World
  {
    var o := Scan(w, w.bullets);
    o.world.(bullets := o.kept)
  }

  /** Bullet `k` is resolved in exactly the world that the bullets after it
      leave behind: the reverse scan order. */
  lemma {:induction false} VerdictInScanOrder(w: World, bs: seq<Bullets.Bullet>, k: nat)
    requires k < |bs|
    ensures Scan(w, bs).verdicts[k] == Resolve(Scan(w, bs[k + 1..]).world, bs[k])
    decreases |bs|
  {
    if k > 0 {
      VerdictInScanOrder(w, bs[1..], k - 1);
      assert bs[1..][k..] == bs[k + 1..];
    } else {
      assert bs[1..] == bs[k + 1..];
    }
  }

  /** The positions (offset by `from`) of the verdicts that keep their
      bullet. */
  function KeptIndices(vs: seq<Verdict>, from: nat): seq<nat>
  {
    if vs == [] then [] else (if vs[0].remove then [] else [from]) + KeptIndices(vs[1..], from + 1)
  }

  /** The kept positions lie inside the run and strictly increase. */
  lemma {:induction false} KeptIndicesAscend(vs: seq<Verdict>, from: nat)
    ensures var idx := KeptIndices(vs, from);
      && |idx| <= |vs|
      && (forall j :: 0 <= j < |idx| ==> from <= idx[j] < from + |vs|)
      && (forall j, j' :: 0 <= j < j' < |idx| ==> idx[j] < idx[j'])
    decreases |vs|
  {
    if vs != [] {
      KeptIndicesAscend(vs[1..], from + 1);
    }
  }

  /** A position is kept exactly when its verdict keeps the bullet. */
  lemma {:induction false} KeptIndicesExact(vs: seq<Verdict>, from: nat)
    ensures forall k :: from <= k < from + |vs| ==> (k in KeptIndices(vs, from) <==> !vs[k - from].remove)
    decreases |vs|
  {
    if vs != [] {
      KeptIndicesExact(vs[1..], from + 1);
      KeptIndicesAscend(vs[1..], from + 1);
      var rest := KeptIndices(vs[1..], from + 1);
      assert KeptIndices(vs, from) == (if vs[0].remove then [] else [from]) + rest;
      assert from !in rest;
    }
  }

  /** The survivors are exactly the kept bullets, in their original relative
      order: survivor `j` is the bullet of the verdict at the `j`-th kept
      position. */
  lemma {:induction false} SurvivorsAreOrderedFilter(vs: seq<Verdict>, from: nat)
    ensures var idx := KeptIndices(vs, from);
      && |idx| == |Survivors(vs)|
      && (forall j :: 0 <= j < |idx| ==> from <= idx[j] < from + |vs| && Survivors(vs)[j] == vs[idx[j] - from].bullet)
    decreases |vs|
  {
    KeptIndicesAscend(vs, from);
    if vs != [] {
      SurvivorsAreOrderedFilter(vs[1..], from + 1);
      var rest := KeptIndices(vs[1..], from + 1);
      assert KeptIndices(vs, from) == (if vs[0].remove then [] else [from]) + rest;
      assert Survivors(vs) == (if vs[0].remove then [] else [vs[0].bullet]) + Survivors(vs[1..]);
      forall j | 0 <= j < |rest|
        ensures Survivors(vs[1..])[j] == vs[rest[j] - from].bullet
      {
        assert vs[1..][rest[j] - (from + 1)] == vs[rest[j] - from];
      }
    }
  }

  /** Resolving one bullet keeps every invariant of the world. */
  lemma ResolveSound(w: World, b: Bullets.Bullet, maxLife: int)
    requires Sound(w, maxLife)
    ensures Sound(Resolve(w, b).world, maxLife)
  {
    var v := Resolve(w, b);
    var p := Landing(b);
    var r := v.world;
    ResolveWorld(w, b);
    forall k | 0 <= k < |r.plants|
      ensures PowerPlants.Consistent(r.plants[k])
    {
      assert PowerPlants.Consistent(w.plants[k]);
    }
    forall k | 0 <= k < |r.doors|
      ensures Doors.Consistent(r.doors[k])
    {
      assert Doors.Consistent(w.doors[k]);
    }
    forall k | 0 <= k < |r.turrets|
      ensures 0.0 <= r.turrets[k].fireCounter < Turrets.FIRE_RATE
    {
      assert r.turrets[k].fireCounter == w.turrets[k].fireCounter;
    }
    if AnyMeltdown(r.plants) {
      var k :| 0 <= k < |r.plants| && r.plants[k].meltdown;
      if w.plants[k].meltdown {
        assert AnyMeltdown(w.plants);
      } else {
        assert Collides(p, w.plants[k].pos) && PowerPlants.Hit(w.plants[k]).plant.meltdown;
        assert MeltdownStruck(w.plants, p);
      }
    }
  }

  /** A whole sweep keeps every invariant, and each kept bullet has flown one
      more frame, so it has between 1 and `maxLife - 1` frames left. */
  lemma {:induction false} SweepSound(w: World, bs: seq<Bullets.Bullet>, maxLife: int)
    requires Sound(w, maxLife) && BulletsLive(bs, maxLife)
    ensures Sound(Scan(w, bs).world, maxLife)
    ensures BulletsLive(Scan(w, bs).kept, maxLife - 1)
    decreases |bs|
  {
    if bs != [] {
      var later := Scan(w, bs[1..]);
      SweepSound(w, bs[1..], maxLife);
      ResolveSound(later.world, bs[0], maxLife);
    }
  }

  /** The splice loop of the game: scan from the last bullet down,
      resolve each in place, and cut it out of the list when it is removed.
      It computes exactly the reference sweep. */
  method SweepBullets(w: World) returns (r: World)
    ensures r == SweepWorld(w)
  {
    var bs := w.bullets;
    var list := bs;
    var cur := w;
    var i := |bs|;
    while i > 0
      invariant 0 <= i <= |bs|
      invariant cur == Scan(w, bs[i..]).world
      invariant list == bs[..i] + Scan(w, bs[i..]).kept
      decreases i
    {
      i := i - 1;
      ghost var later := Scan(w, bs[i + 1..]);
      SweepUnfold(w, bs, i);
      assert list[i] == bs[i];
      var v := Resolve(cur, list[i]);
      cur := v.world;
      if v.remove {
        list := list[..i] + list[i + 1..];
      } else {
        list := list[i := v.bullet];
      }
      assert list == bs[..i] + (if v.remove then [] else [v.bullet]) + later.kept;
    }
    assert bs[0..] == bs;
    r := cur.(bullets := list);
  }

  /** The sweep of a suffix resolves its first bullet last. */
  lemma SweepUnfold(w: World, bs: seq<Bullets.Bullet>, i: nat)
    requires i < |bs|
    ensures var later := Scan(w, bs[i + 1..]);
            var v := Resolve(later.world, bs[i]);
            Scan(w, bs[i..]) == Outcome(v.world, (if v.remove then [] else [v.bullet]) + later.kept, [v] + later.verdicts)
  {
    assert bs[i..][1..] == bs[i + 1..];
  }
}

=== FILE: turret.dfy ===
/** Gun emplacements that fire at the ship on a fixed period. */
module Turrets {
  import opened Geometry
  import opened Wrappers
  import Bullets

  /** Frames between two shots. */
  const FIRE_RATE: real := 120.0
  /** Distance from the base at which a shot appears. */
  const MUZZLE: real := 0.8
  /** Speed of a turret shot. */
  const SHOT_SPEED: real := 0.15

  /** A draw of the random generator: a real in [0, 1). */
  type Unit = r: real | 0.0 <= r < 1.0 witness 0.0

  /** `aim` is the gun direction as a unit vector (cosine and sine of the
      gun's rotation); `fireCounter` is fractional because its initial
      value is a random fraction of the period. */
  datatype Turret = Turret(base: Vec, aim: Vec, fireCounter: real, active: bool)

  /** A new turret with the random initial phase `phase * FIRE_RATE`; the
      gun starts unrotated, pointing right. */
  function Spawn(base: Vec, phase: Unit): (t: Turret)
    ensures t.active && t.base == base
    ensures t.aim == Vec(1.0, 0.0)
    ensures t.fireCounter == phase * FIRE_RATE
    ensures 0.0 <= t.fireCounter < FIRE_RATE
  {
    Turret(base, Vec(1.0, 0.0), phase * FIRE_RATE, true)
  }

  /** A hostile bullet leaving the muzzle along the gun direction. */
  function Shoot(t: Turret): (b: Bullets.Bullet)
    ensures b.pos == Add(t.base, Scale(t.aim, MUZZLE))
    ensures b.vel == Scale(t.aim, SHOT_SPEED)
    ensures b.hostile && b.lifespan == Bullets.LIFESPAN
  {
    Bullets.Fire(Add(t.base, Scale(t.aim, MUZZLE)), Scale(t.aim, SHOT_SPEED), true)
  }

  /** The turret after one frame and the shot it fired, if any. */
  datatype TurretStep = TurretStep(turret: Turret, shot: Option<Bullets.Bullet>)

  /** One frame: an inactive turret, or any turret once the game is over,
      does nothing. Otherwise it aims at `target` (the direction is given by
      `aimAt`), counts one frame and fires when the counter reaches the
      period, resetting the counter. */
  function Update(t: Turret, gameOver: bool, target: Vec, aimAt: (Vec, Vec) -> Vec): (r: TurretStep)
    ensures !t.active || gameOver ==> r.turret == t && r.shot == None
    ensures t.active && !gameOver ==> (r.shot.Some? <==> t.fireCounter + 1.0 >= FIRE_RATE)
    ensures t.active && !gameOver ==>
      r.turret.fireCounter == (if r.shot.Some? then 0.0 else t.fireCounter + 1.0)
    ensures r.turret.active == t.active && r.turret.base == t.base
    ensures t.active && !gameOver ==> r.turret.aim == aimAt(t.base, target)
    ensures r.shot.Some? ==>
      && r.shot.value.pos == Add(t.base, Scale(aimAt(t.base, target), MUZZLE))
      && r.shot.value.hostile
      && r.shot.value.lifespan == Bullets.LIFESPAN
      && r.shot.value.vel == Scale(aimAt(t.base, target), SHOT_SPEED)
  {
    if !t.active || gameOver then TurretStep(t, None)
    else
      var aimed := t.(aim := aimAt(t.base, target), fireCounter := t.fireCounter + 1.0);
      if aimed.fireCounter >= FIRE_RATE then
        TurretStep(aimed.(fireCounter := 0.0), Some(Shoot(aimed)))
      else
        TurretStep(aimed, None)
  }

  /** Permanently silences the turret: nothing in the game sets `active`
      back to true. */
  function Deactivate(t: Turret): (r: Turret)
    ensures !r.active
    ensures r.base == t.base && r.aim == t.aim && r.fireCounter == t.fireCounter
  {
    t.(active := false)
  }

  /** `n` frames of a running game with the ship held at `target`. */
  function Run(t: Turret, n: nat, target: Vec, aimAt: (Vec, Vec) -> Vec): Turret
    decreases n
  {
    if n == 0 then t else Update(Run(t, n - 1, target, aimAt), false, target, aimAt).turret
  }

  /** Until the counter reaches the period, each frame adds exactly one. */
  lemma {:induction false} CountsUpToPeriod(t: Turret, n: nat, target: Vec, aimAt: (Vec, Vec) -> Vec)
    requires t.active && 0.0 <= t.fireCounter
    requires t.fireCounter + n as real < FIRE_RATE
    ensures Run(t, n, target, aimAt).fireCounter == t.fireCounter + n as real
    ensures Run(t, n, target, aimAt).active
    decreases n
  {
    if n > 0 {
      CountsUpToPeriod(t, n - 1, target, aimAt);
    }
  }

  /** A turret whose counter starts at `c` fires on the first frame `n` with
      `c + n >= 120`, and not before. */
  lemma FiresWhenCounterReachesPeriod(t: Turret, n: nat, target: Vec, aimAt: (Vec, Vec) -> Vec)
    requires t.active && 0.0 <= t.fireCounter && 1 <= n
    requires t.fireCounter + (n - 1) as real < FIRE_RATE
    ensures Update(Run(t, n - 1, target, aimAt), false, target, aimAt).shot.Some?
        <==> t.fireCounter + n as real >= FIRE_RATE
  {
    CountsUpToPeriod(t, n - 1, target, aimAt);
  }

  /** Right after a shot (counter 0) the next shot comes exactly 120 frames
      later. */
  lemma FiresEveryPeriod(t: Turret, n: nat, target: Vec, aimAt: (Vec, Vec) -> Vec)
    requires t.active && t.fireCounter == 0.0 && 1 <= n <= 120
    ensures Update(Run(t, n - 1, target, aimAt), false, target, aimAt).shot.Some? <==> n == 120
  {
    FiresWhenCounterReachesPeriod(t, n, target, aimAt);
  }
}

=== FILE: world.dfy ===
/** The game state record, the live entity lists, and loading a level into
    them. */
module Worlds {
  import opened Geometry
  import opened Wrappers
  import opened Levels
  import Bullets
  import Turrets
  import PowerPlants
  import Doors
  import Capsules
  import Fuel
  import Ships

  const INITIAL_LIVES: real := 3.0

  /** The process-wide game state. Lives move in steps of 0.5 and fuel in
      steps of 0.2, so both are exact reals here. */
  datatype GameState = GameState(
    lives: real,
    fuel: real,
    score: int,
    level: int,
    isGameOver: bool,
    isLevelComplete: bool,
    capsuleAttached: bool,
    inverseGravity: bool,
    invisibleWalls: bool)

  const InitialState: GameState :=
    GameState(INITIAL_LIVES, Fuel.INITIAL_FUEL, 0, 1, false, false, false, false, false)

  /** A wall of the current level; `visible` is cleared on levels with
      invisible walls, which still collide. */
  datatype Wall = Wall(rect: Rect, visible: bool)

  /** Everything the frame loop reads and writes: the state record, the ship,
      the live entity lists, the capsule (absent once a level is torn down)
      and the fire-key latch. */
  datatype World = World(
    state: GameState,
    ship: Ships.Ship,
    walls: seq<Wall>,
    bullets: seq<Bullets.Bullet>,
    turrets: seq<Turrets.Turret>,
    plants: seq<PowerPlants.PowerPlant>,
    tanks: seq<Fuel.FuelTank>,
    doors: seq<Doors.Door>,
    capsule: Option<Capsules.FuelCapsule>,
    lastShot: bool)

  /** Tears the level down: every entity list is emptied and the capsule
      (detached first) is dropped; the state, ship and latch are kept. */
  function ResetScene(w: World): (r: World)
    ensures r.walls == [] && r.bullets == [] && r.turrets == []
    ensures r.plants == [] && r.tanks == [] && r.doors == []
    ensures r.capsule == None
    ensures r.state == w.state && r.ship == w.ship && r.lastShot == w.lastShot
  {
    w.(walls := [], bullets := [], turrets := [], plants := [], tanks := [], doors := [],
       capsule := None)
  }

  /** Loads the 1-based level `index`. The scene is always torn down first.
      When the catalogue has no such level nothing else happens; otherwise
      the level number and environment flags are set, the ship is placed at
      the start at rest, and one live entity is created per catalogue entry.
      Turret `k` takes its random phase from `random(k)`. */
  function LoadLevel(w: World, levels: seq<LevelData>, index: int, random: nat -> Turrets.Unit): (r: World)
    ensures r.bullets == [] && r.lastShot == w.lastShot
    ensures r.state.lives == w.state.lives && r.state.fuel == w.state.fuel
    ensures r.state.score == w.state.score && r.state.isGameOver == w.state.isGameOver
    ensures r.state.isLevelComplete == w.state.isLevelComplete
    ensures r.state.capsuleAttached == w.state.capsuleAttached
    ensures r.ship.turn == w.ship.turn && r.ship.thrust == w.ship.thrust && r.ship.shield == w.ship.shield
    ensures !(1 <= index <= |levels|) ==> r == ResetScene(w)
    ensures 1 <= index <= |levels| ==>
      var ld := levels[index - 1];
      && r.state.level == index
      && r.state.inverseGravity == ld.inverseGravity
      && r.state.invisibleWalls == ld.invisibleWalls
      && r.ship.pos == ld.start && r.ship.vel == Origin
      && |r.walls| == |ld.walls| && |r.turrets| == |ld.turrets| && |r.plants| == |ld.plants|
      && |r.tanks| == |ld.tanks| && |r.doors| == |ld.doors|
      && (forall k :: 0 <= k < |r.walls| ==> r.walls[k] == Wall(ld.walls[k], !ld.invisibleWalls))
      && (forall k :: 0 <= k < |r.turrets| ==> r.turrets[k] == Turrets.Spawn(ld.turrets[k], random(k)))
      && (forall k :: 0 <= k < |r.plants| ==> r.plants[k] == PowerPlants.Spawn(ld.plants[k]))
      && (forall k :: 0 <= k < |r.tanks| ==> r.tanks[k] == Fuel.FuelTank(ld.tanks[k], false))
      && (forall k :: 0 <= k < |r.doors| ==> r.doors[k] == Doors.Spawn(ld.doors[k]))
      && r.capsule == Some(Capsules.Spawn(ld.capsule))
  {
    var cleared := ResetScene(w);
    match GetLevel(levels, index - 1)
    case None => cleared
    case Some(ld) =>
      cleared.(
        state := w.state.(level := index, inverseGravity := ld.inverseGravity,
                          invisibleWalls := ld.invisibleWalls),
        ship := w.ship.(pos := ld.start, vel := Origin),
        walls := seq(|ld.walls|, k requires 0 <= k < |ld.walls| => Wall(ld.walls[k], !ld.invisibleWalls)),
        turrets := seq(|ld.turrets|, k requires 0 <= k < |ld.turrets| => Turrets.Spawn(ld.turrets[k], random(k))),
        plants := seq(|ld.plants|, k requires 0 <= k < |ld.plants| => PowerPlants.Spawn(ld.plants[k])),
        tanks := seq(|ld.tanks|, k requires 0 <= k < |ld.tanks| => Fuel.FuelTank(ld.tanks[k], false)),
        doors := seq(|ld.doors|, k requires 0 <= k < |ld.doors| => Doors.Spawn(ld.doors[k])),
        capsule := Some(Capsules.Spawn(ld.capsule)))
  }

  /** The world at start-up: initial state, a new ship at the origin, no
      entities, then level 1 loaded. */
  function NewGame(levels: seq<LevelData>, random: nat -> Turrets.Unit): World
  {
    var empty := World(InitialState, Ships.Spawn(), [], [], [], [], [], [], None, false);
    LoadLevel(empty, levels, 1, random)
  }

  /** Some power plant is melting down. */
  predicate AnyMeltdown(plants: seq<PowerPlants.PowerPlant>)
  {
    exists k :: 0 <= k < |plants| && plants[k].meltdown
  }

  /** Once any plant melts down, no turret is active. */
  ghost predicate GunsSilenced(w: World)
  {
    AnyMeltdown(w.plants) ==> forall k :: 0 <= k < |w.turrets| ==> !w.turrets[k].active
  }

  /** Every live bullet has between 1 and `maxLife` frames left. */
  ghost predicate BulletsLive(bs: seq<Bullets.Bullet>, maxLife: int)
  {
    forall k :: 0 <= k < |bs| ==> 1 <= bs[k].lifespan <= maxLife
  }

  /** The invariants of the entity lists. */
  ghost predicate EntitiesSound(w: World)
  {
    && (forall k :: 0 <= k < |w.turrets| ==> 0.0 <= w.turrets[k].fireCounter < Turrets.FIRE_RATE)
    && (forall k :: 0 <= k < |w.doors| ==> Doors.Consistent(w.doors[k]))
    && (forall k :: 0 <= k < |w.plants| ==> PowerPlants.Consistent(w.plants[k]))
    && (forall k :: 0 <= k < |w.tanks| ==> !w.tanks[k].collected)
    && GunsSilenced(w)
  }

  /** The invariants that hold at every point of a frame, with bullets
      allowed up to `maxLife` frames of life. */
  ghost predicate Sound(w: World, maxLife: int)
  {
    && Fuel.OnGauge(w.state.fuel)
    && (w.state.lives <= 0.0 ==> w.state.isGameOver)
    && (w.state.capsuleAttached <==> w.capsule.Some? && w.capsule.value.attached)
    && BulletsLive(w.bullets, maxLife)
    && EntitiesSound(w)
  }

  /** The invariants that hold between two frames: no level completion is
      pending and every bullet has already flown at least one frame. */
  ghost predicate Valid(w: World)
  {
    Sound(w, Bullets.LIFESPAN - 1) && !w.state.isLevelComplete
  }

  /** Loading a level discards every entity of the previous one: whatever
      they were, the result satisfies the invariants once the capsule flag
      is cleared (as the frame loop does right after loading), given only
      that fuel and lives were in order. */
  lemma LoadLevelSound(w: World, levels: seq<LevelData>, index: int, random: nat -> Turrets.Unit, maxLife: int)
    requires Fuel.OnGauge(w.state.fuel)
    requires w.state.lives <= 0.0 ==> w.state.isGameOver
    ensures var r := LoadLevel(w, levels, index, random);
            Sound(r.(state := r.state.(capsuleAttached := false)), maxLife) && !AnyMeltdown(r.plants)
  {
    var r := LoadLevel(w, levels, index, random);
    if 1 <= index <= |levels| {
      var ld := levels[index - 1];
      forall k | 0 <= k < |r.turrets|
        ensures 0.0 <= r.turrets[k].fireCounter < Turrets.FIRE_RATE
      {
        assert r.turrets[k] == Turrets.Spawn(ld.turrets[k], random(k));
      }
    }
  }

  /** The game starts in a valid state with 3 lives, full fuel, score 0. */
  lemma NewGameValid(levels: seq<LevelData>, random: nat -> Turrets.Unit)
    ensures Valid(NewGame(levels, random))
    ensures NewGame(levels, random).state.lives == INITIAL_LIVES
    ensures NewGame(levels, random).state.fuel == Fuel.INITIAL_FUEL
    ensures NewGame(levels, random).state.score == 0
  {
    var empty := World(InitialState, Ships.Spawn(), [], [], [], [], [], [], None, false);
    assert Fuel.OnGauge(100.0) by { assert (5.0 * 100.0).Floor == 500; }
    LoadLevelSound(empty, levels, 1, random, Bullets.LIFESPAN - 1);
    var r := LoadLevel(empty, levels, 1, random);
    assert r.(state := r.state.(capsuleAttached := false)) == r;
  }
}

=== FILE: wrappers.dfy ===
/** The optional value used where the game returns `null`. */
module Wrappers {

  datatype Option<+T> = None | Some(value: T)
}
